=== FILE: README.md ===
# Roof drain: a Dafny model

The roof-drain system keeps the flat roof of a house free of standing water.
Siphon pumps empty a set of configured "puddles". A small web service
estimates how much water each puddle holds and tells each drain whether to run.
A microcontroller runs the pumps.

This project models the rules of the system and proves properties of them.

- **Drain report cycle** (`UpdateFromRoofDrainAsync`). When a drain reports,
  each configured puddle loses the water drained since the last report, plus a
  small evaporation allowance. Its draining flag is then recomputed by a
  Schmitt trigger. The flag switches on above a one-sixteenth-inch depth and
  stays on until the puddle is empty, but only above 4 °C.
- **Weather poll cycle** (`UpdateFromWeatherStationsAsync`). Each station
  reading contributes the rain that fell since that station's previous
  observation. The contributions are clamped and averaged, converted to gallons
  per puddle, and added. The puddles' temperature becomes the average reading.
- **Manual water override** (`SetWater`), and the case-insensitive get-or-add
  of puddle and station records.
- **State service.** The default records, the initial document built from the
  configuration when nothing is stored yet, and the versioned store. A save
  names the version it loaded, and the store applies it only while that version
  is current.
- **Firmware** (`smartdrain.cpp`). The microcontroller's `setup` and `loop`:
  freeze hysteresis, exponential-backoff re-priming, manual trigger, the
  blinking LED, and the pump bit encoding. It also covers the helpers
  `enablePump`, `prime`, `tryWaitForState` and `safeReadTemperature`.

Modules follow the source:

| module | file | covers |
|---|---|---|
| `Common` | `common.dfy` | ticks, case folding, sums and averages |
| `Models` | `models.dfy` | the records |
| `StateService` | `state_service.dfy` | defaults, load, save |
| `Registry` | `registry.dfy` | lookup and get-or-add |
| `Drain` | `drain.dfy` | the drain cycle |
| `Weather` | `weather.dfy` | the weather cycle and `SetWater` |
| `Firmware` | `firmware.dfy` | the controller |

How the source's types are modelled:

- `DateTimeOffset` becomes integer ticks of 100 ns, and `double` becomes `real`.
- Every read of the clock, every sensor or pin sample, and every fetched
  weather reading is a parameter.
- The firmware's `uint32_t` millisecond counter is an integer newtype in
  `[0, 2^32)`. `now - earlier` is written out as subtraction modulo 2^32, and
  the backoff shift as doubling modulo 2^32.

A few behaviours of the code are easy to miss. The model keeps them as written:

- **Saving with no version token.** A save without a token (after a load that
  found no stored document) carries a null ETag, which sets no If-Match
  condition (`StateService.cs:83`), so the write is unconditional. Such a save
  is applied even if another cycle has stored a document meanwhile, and that
  document is lost. `StateService.FirstSavesRace` shows the lost update.
- **Station times.** A station's stored observation time is overwritten by
  every reading, including an older one. It does not only move forward.
- **Implausible contributions.** A contribution is clamped to [0, 3] inches
  rather than discarded.
- **No readings.** A poll with no successful reading makes `Average` throw, so
  nothing is saved.
- **Retry constant.** The comment on the initial retry delay in `smartdrain.cpp`
  says thirty minutes, but the value is 3 600 000 ms, one hour. The model uses
  the value.

## Model

| member | source | states |
|---|---|---|
| `Common.NameEqualsIgnoresCase` | rdrain/Services/UpdateService.cs:209 | two names compare equal exactly when they have the same length and each position holds the same character or its other-case ASCII letter, as `OrdinalIgnoreCase` matches them |
| `StateService.Load` | rdrain/Services/StateService.cs:42-74 | with no stored document: one default puddle per configured puddle and one default station per configured station, in configuration order; zero gallons, flag off, temperature 0 (the unset default), stamped one hour before `now`; and no token. With a document: its contents and its current version |
| `StateService.Save` | rdrain/Services/StateService.cs:77-84 | the write is applied exactly when there is no token or the token is the stored version; a refused write changes nothing; an applied write stores the state under a newer version |
| `StateService.LoadThenSave` | rdrain/Services/StateService.cs:42-84 | a save that passes back the token of its own load is applied, and the next load returns what was saved |
| `StateService.ConcurrentSaveConflicts` | rdrain/Services/StateService.cs:58-64 | two cycles that loaded the same stored version: the first save is applied, the second is refused, and the first cycle's state stays stored |
| `StateService.FirstSavesRace` | rdrain/Services/StateService.cs:52-56 | when nothing was stored, both cycles hold no token; both saves are applied and the second silently replaces the first |
| `Registry.IndexOfName` | rdrain/Services/UpdateService.cs:209 | `FirstOrDefault` by name: the result is the first position whose name matches ignoring case, and none means no position matches |
| `Registry.GetOrAddPuddle` | rdrain/Services/UpdateService.cs:207-216 | the returned record is the first one matching the name; if one exists the list is unchanged; otherwise exactly one default record is appended at the end; either way the record handed back is the found one or the default (`PuddleOrDefault`) |
| `Registry.GetOrAddStation` | rdrain/Services/UpdateService.cs:221-230 | the same for weather stations |
| `Registry.GetOrAddPuddleKeepsNamesUnique` | rdrain/Services/UpdateService.cs:207-216 | get-or-add never creates a second record for a name already present |
| `Registry.GetOrAddStationKeepsNamesUnique` | rdrain/Services/UpdateService.cs:221-230 | the same for weather stations |
| `Drain.GallonsDrained` | rdrain/Services/UpdateService.cs:78-80 | over a forward interval with a non-negative drain rate, at least the 0.1 gallon evaporation allowance is removed |
| `Drain.DrainPuddle` | rdrain/Services/UpdateService.cs:69-97 | the stamp becomes `now`; after an interval over three hours the volume is unchanged, otherwise it is never negative; with the flag off only evaporation is taken; with a forward clock and a non-negative rate the volume is at most `max(0, old - 0.1)`, so a non-negative volume never grows (a negative one stored by `SetWater` is raised to 0). The flag is off at or below 4 °C, latched while water remains, on above the sixteenth-inch volume, off when a puddle of non-negative area is empty, and on in no other case |
| `Drain.DrainingRemovesFlow` | rdrain/Services/UpdateService.cs:78-82 | with the flag set and a normal interval, the volume becomes `max(0, old - (minutes * rate + 0.1))` |
| `Drain.ClockSkewAddsWater` | rdrain/Services/UpdateService.cs:70-82 | a clock read before the stored stamp gives a negative interval, which the code does not guard; with the flag set it adds water |
| `Drain.FreshPuddleNeverDrains` | rdrain/Services/StateService.cs:69-70 | a new record's temperature is zero, so drain reports alone never set its flag |
| `Drain.FreshPuddleReportIsNormal` | rdrain/Services/StateService.cs:69-70 | a new record is stamped an hour back, so a report within two hours of its creation is not treated as an overly long delay |
| `Drain.DrainExample` | rdrain/Services/UpdateService.cs:78-97 | ten gallons draining at five gallons a minute for one minute leave 4.9 gallons, and the flag stays on |
| `Drain.DrainOne` | rdrain/Services/UpdateService.cs:65-99 | one configuration step: the record the name selects afterwards is `DrainPuddle` applied to the record found before, or to a fresh default record; records of other names are untouched; the list keeps its length when the name has a record, and grows by one record of that name when it has none; non-negative volumes and the warm-flag invariant are kept |
| `Drain.DrainAll` | rdrain/Services/UpdateService.cs:65-100 | the whole pass keeps existing records in place with their names and temperatures, and keeps volumes non-negative and flags set only above 4 °C; what it does to each configured record is stated by `Drain.DrainAllDrains` |
| `Drain.DrainOneKeepsOthers` | rdrain/Services/UpdateService.cs:65-99 | a step for one configuration leaves the record every other name selects, or would create, unchanged |
| `Registry.StepKeepsNamesUnique` | rdrain/Services/UpdateService.cs:207-230 | a step that keeps the existing names and appends only a name no existing record matches keeps names unique |
| `Drain.DrainAllKeepsNamesUnique` | rdrain/Services/UpdateService.cs:65-100 | the drain pass never creates a second record for a name |
| `Drain.DrainAllLeavesOthers` | rdrain/Services/UpdateService.cs:65-100 | a record no configuration names comes out unchanged |
| `Drain.DrainAllKeepsLookup` | rdrain/Services/UpdateService.cs:65-100 | a name that already has a record keeps it at the same position through the pass |
| `Drain.DrainAllCoversConfig` | rdrain/Services/UpdateService.cs:65-100 | the record that one configuration's step finds or adds is still found after the rest of the pass |
| `Drain.DrainAllCoversConfigs` | rdrain/Services/UpdateService.cs:65-100 | after the pass every configured name has a record |
| `Drain.DrainAllStamps` | rdrain/Services/UpdateService.cs:65-100 | with distinct configured names, each configured puddle carries the stamp of its own step |
| `Drain.DrainAllDrains` | rdrain/Services/UpdateService.cs:65-100 | with distinct configured names, each configured puddle's record after the pass is the drain step, with its own configuration and clock readings, of the record it had before the pass (or of a fresh default record) |
| `Drain.DrainAllDrainsConfig` | rdrain/Services/UpdateService.cs:65-100 | the same for the `k`-th configuration alone |
| `Drain.UpdateFromRoofDrain` | rdrain/Services/UpdateService.cs:61-104 | the returned puddles are the loaded ones after the drain pass (so `Drain.DrainAllDrains` applies to them); the save goes to the store as it stands at save time; it is applied exactly when that store still holds the loaded version, or when the load found no document; a refused save leaves that store unchanged, and with no other writer in between a well-formed store accepts it; the stored document holds the returned puddles and the loaded stations; non-negative volumes stay non-negative |
| `Weather.Contribution` | rdrain/Services/UpdateService.cs:158-170 | a reading not newer than the stored time, or more than three hours newer, adds nothing; otherwise it adds the hours elapsed times its hourly rate |
| `Weather.ContributionBounds` | rdrain/Services/UpdateService.cs:163-170 | with a non-negative rate a contribution lies between zero and three hours' worth of that rate |
| `Weather.StationStep` | rdrain/Services/UpdateService.cs:154-170 | the contribution is measured against the station's previously stored time; afterwards that station's stored time is the reading's observation time, even if older; other stations' times are unchanged; a record is appended exactly when the station is not yet known |
| `Weather.FoldKeepsNamesUnique` | rdrain/Services/UpdateService.cs:152-171 | the fold never creates a second station record, even when a station reports twice |
| `Weather.FoldUsesStoredTimes` | rdrain/Services/UpdateService.cs:152-171 | when no two readings come from one station, every reading is measured against its station's time from before the cycle, whatever the order |
| `Weather.FoldStoresTimes` | rdrain/Services/UpdateService.cs:152-171 | when no two readings come from one station, after the fold each reported station's stored time is its reading's observation time, and every other station keeps its time |
| `Weather.ClampRain` | rdrain/Services/UpdateService.cs:174 | the clamp lands in [0, 3], leaves values already in range unchanged, and pulls a value above 3 down to 3 and one below 0 up to 0, rather than discarding it |
| `Weather.GallonsAdded` | rdrain/Services/UpdateService.cs:189-190 | non-negative area and rainfall add a non-negative volume |
| `Weather.ClampedContributions` | rdrain/Services/UpdateService.cs:152-174 | with one reading per station, the clamped contributions of the fold are the clamped contributions of the readings measured against the stored times from before the poll |
| `Weather.Aggregate` | rdrain/Services/UpdateService.cs:152-174 | the temperature is the mean of the readings' temperatures, between the lowest and highest reading; the rainfall lies in [0, 3] and, with one reading per station, is the mean of the clamped contributions measured against the stored times from before the poll; with one reading per station, each reported station then stores its reading's observation time and the other stations keep theirs |
| `Weather.AggregateIgnoresOrder` | rdrain/Services/UpdateService.cs:152-174 | rainfall and temperature are the same for every order of the bag when no station reports twice |
| `Weather.RainOne` | rdrain/Services/UpdateService.cs:187-198 | the configured puddle exists afterwards at the poll's temperature and gains exactly the gallons its area collects; its name, stamp and draining flag are those of the record found, or of a fresh default record; the list keeps its length when the name has a record and grows by one otherwise; other records are untouched; with non-negative area and rain no volume shrinks |
| `Weather.RainAll` | rdrain/Services/UpdateService.cs:185-199 | with non-negative areas and rain, no existing volume shrinks and non-negative volumes stay non-negative |
| `Weather.RainAllKeepsNamesUnique` | rdrain/Services/UpdateService.cs:185-199 | the rain pass never creates a second record for a name |
| `Weather.RainAllLeavesOthers` | rdrain/Services/UpdateService.cs:185-199 | a record no configuration names comes out unchanged |
| `Weather.RainAllSetsTemperature` | rdrain/Services/UpdateService.cs:185-199 | every configured puddle has a record afterwards, at the average temperature |
| `Weather.RainAllKeepsTemperature` | rdrain/Services/UpdateService.cs:185-199 | a record already at the poll's temperature keeps it through the rest of the pass, whether or not a later configuration selects it again |
| `Weather.RainAllAddsGallons` | rdrain/Services/UpdateService.cs:185-199 | with distinct configured names, each configured puddle gains exactly `area * 144 * rainfall / 231` gallons |
| `Weather.RainOneKeepsOthers` | rdrain/Services/UpdateService.cs:187-197 | rain for one configuration does not change the volume any other name selects |
| `Weather.WeatherStep` | rdrain/Services/UpdateService.cs:148-199 | there is a result exactly when there is at least one reading; its sample is the readings' `Aggregate`, its stations are those the fold leaves, and its puddles are the loaded ones after the rain pass for that sample (so the `RainAll` lemmas apply); its rainfall lies in [0, 3]; no puddle is dropped, and with non-negative areas no volume shrinks |
| `Weather.WeatherStepIgnoresOrder` | rdrain/Services/UpdateService.cs:109-199 | the resulting sample and puddles do not depend on the order of the bag when no station reports twice |
| `Weather.UpdateFromWeatherStations` | rdrain/Services/UpdateService.cs:148-201 | without readings nothing is saved; otherwise the save goes to the store as it stands at save time; it is applied exactly when that store still holds the loaded version, or when the load found no document; a refused save leaves that store unchanged, and with no other writer in between a well-formed store accepts it; an applied save stores the `WeatherStep` state of the loaded document, and non-negative volumes stay non-negative |
| `Weather.SetWater` | rdrain/Services/UpdateService.cs:52-55 | every puddle holds the given volume, negative values included, and no other field, record or station changes |
| `Weather.SetWaterLastWins` | rdrain/Services/UpdateService.cs:52-55 | setting the water twice is the same as setting it once to the later value |
| `Weather.SetWaterNonNegative` | rdrain/Services/UpdateService.cs:52-55 | the override leaves all volumes non-negative exactly when its value is non-negative |
| `Weather.SetWaterCycle` | rdrain/Services/UpdateService.cs:48-58 | the save goes to the store as it stands at save time; it is applied exactly when that store still holds the loaded version, or when the load found no document; a refused save leaves that store unchanged, and with no other writer in between a well-formed store accepts it; an applied save stores exactly `SetWater` of the loaded document, so every stored puddle holds the given volume and nothing else changes |
| `Firmware.Since` | rdrain/smartdrain.cpp:233 | the `uint32_t` difference is the true elapsed time, also across one wrap of the counter |
| `Firmware.EnablePump` | rdrain/smartdrain.cpp:101-105 | with the bit values of the `Pump` enum (lines 44-50), output X is high for A and C, output Y for B and C; the two levels decode back to the selection; both are low exactly for None |
| `Firmware.TryWaitForState` | rdrain/smartdrain.cpp:108-136 | it returns the last sampled level, at the first sample where the level has held for the hold time or the wait has timed out; a level other than the one waited for comes back only after the time-out |
| `Firmware.Prime` | rdrain/smartdrain.cpp:139-162 | it succeeds exactly when the ready wait ends High and the drain wait ends Low; the pump runs only after a successful ready wait, no other pump is driven, and the pumps are off when it returns |
| `Firmware.PrimeLeavesPumpsOff` | rdrain/smartdrain.cpp:139-162 | pumps off on entry are off on exit, whatever the waits see |
| `Firmware.FlushCommands` | rdrain/smartdrain.cpp:182-193 | the flush runs every pump selection and ends with the pumps off |
| `Firmware.PrimeSequenceCommands` | rdrain/smartdrain.cpp:196-203 | the prime sequence ends with the pumps off, and each of A, B and C is driven exactly when its own prime found the input ready, whatever the other primes returned |
| `Firmware.SafeReadTemperature` | rdrain/smartdrain.cpp:165-179 | the result is the first reading within [-50, 50] °C; every earlier reading was implausible |
| `Firmware.Setup` | rdrain/smartdrain.cpp:65-86 | frozen exactly below 1 °C; retry delay at its one-week maximum; drain and prime stamped `now`; the first temperature check due as soon as the clock moves; LED low |
| `Firmware.Freeze` | rdrain/smartdrain.cpp:242-250 | the flag turns on only below 1.0 °C and off only above 1.5 °C; between the two it keeps its value; a flush goes exactly with turning it on |
| `Firmware.Backoff` | rdrain/smartdrain.cpp:292-302 | the new delay is always between one hour and one week; from a delay in range it doubles, or stops at one week |
| `Firmware.NextLed` | rdrain/smartdrain.cpp:308 | the LED goes High exactly when it was Low and the drain input is Low |
| `Firmware.Reschedule` | rdrain/smartdrain.cpp:257-303 | a manual trigger primes once and resets both stamps and the delay; draining resets the drain stamp and the delay and re-primes only after an hour without priming; otherwise the backoff re-primes only when not frozen and the drain has been quiet longer than the delay; at most one prime per pass |
| `Firmware.Loop` | rdrain/smartdrain.cpp:225-309 | one pass: pumps off first; the temperature is re-read only when thirty seconds have passed; the freeze flag follows the hysteresis and a flush goes with freezing; the retry delay stays within [1 h, 1 week]; the LED written is last pass's level, and the next is High exactly when it was Low and the drain input is Low |
| `Firmware.LoopPrimingRules` | rdrain/smartdrain.cpp:257-303 | in terms of the actions a pass takes: a manual trigger runs exactly one prime sequence and resets both stamps and the delay; draining resets the drain stamp and delay and re-primes only after more than an hour; otherwise the backoff re-primes only when not frozen and the quiet time exceeds the delay, and then the delay backs off; never two prime sequences in a pass |
| `Firmware.ActionCommands` | rdrain/smartdrain.cpp:182-203 | every action of the loop ends with the pumps off |
| `Firmware.LoopLeavesPumpsOff` | rdrain/smartdrain.cpp:225-309 | whatever the pumps did on entry and whatever the primes see, a pass of the loop leaves both pumps off |
| `Firmware.PassCommandsEndOff` | rdrain/smartdrain.cpp:225-303 | a series of actions whose commands each end with the pumps off ends with the pumps off |
| `Firmware.Run` | rdrain/smartdrain.cpp:225-309 | consecutive passes write one LED level each, starting with the state's level |
| `Firmware.RunNeverLightsTwice` | rdrain/smartdrain.cpp:307-308 | over any run of passes, the LED is never High on two passes in a row |
| `Firmware.RunKeepsDelayInRange` | rdrain/smartdrain.cpp:83-303 | from setup on, the retry delay stays between one hour and one week after any number of passes |
| `Firmware.RunFromKeepsDelayInRange` | rdrain/smartdrain.cpp:257-303 | any run of passes that starts with the delay in range keeps it in range |

## Left out

- Fetching weather readings is left out: the HTTP calls, JSON parsing, `Task.WhenAll` and the per-station exception handling. The successful readings are an input sequence, in whatever order the `ConcurrentBag` enumerates them.
- Telemetry calls are left out. They only report.
- The blob client, JSON serialisation and the ETag check itself live in the storage SDK. The store is modelled abstractly: every write gets a fresh increasing version, and an If-Match write is applied only while its version is current.
  - Between the attribute fetch and the download, a load may fail on a version change. That failure is not modelled.
  - `ResetAsync` of the state service interface has no implementation in the source and is not part of this model.
- The API controller, its DTOs, the relay script, start-up and configuration binding are not part of this model. Configuration is an input.
- The firmware's hardware primitives are inputs: pin reads, the clock, the temperature sensor and the serial line. The pump writes of a pass are a list of commands. The `delay` pauses and `printStatusLine` are not modelled.
- `Firmware.Loop` does not record the LED-low writes that the flush and prime sequences make before the loop's own LED write.
- `Firmware.TryWaitForState` and `Firmware.SafeReadTemperature` wait until their exit condition holds. Given finitely many samples, they answer `None` when the condition never held.
- `Firmware.Prime` takes the outcomes of its two waits as inputs. It is not composed with `TryWaitForState`.
- `Common.NameEqualsIgnoresCase`: case folding covers the ASCII letters only, not the full ordinal upper-casing of non-ASCII characters.
- A `null` name or reading is not modelled.
- Floating point is modelled as real arithmetic. There is no rounding, and there is no NaN or infinity.
- `Drain.UpdateFromRoofDrain` models a refused save (a stale ETag, HTTP 412) as `written == false` with the store unchanged. The service instead throws out of the cycle and returns no flags. Concurrency is modelled only through the store the save meets, which another cycle may have written since the load. How cycles interleave is not modelled.
- `Weather.UpdateFromWeatherStations` models a refused save as `written == false` with the store unchanged, where the service throws. Concurrency is covered only by the separate save-time store.
- `Weather.SetWaterCycle` models a refused save as `written == false` with the store unchanged, where the service throws. Concurrency is covered only by the separate save-time store.
- `Drain.UpdateFromRoofDrain` takes the clock readings of each puddle step as parameters. The clock readings that the load and the weather or `SetWater` cycles take when they create default records are one reading per cycle (`now`), not one per record.
- `Weather.AggregateIgnoresOrder` is stated only for bags in which no station reports twice. With repeated stations the result depends on the order, as in the code.
- `Weather.Aggregate` states the rainfall as a mean of pre-poll contributions only when no station reports twice. With a repeated station, the later reading is measured against the earlier reading's time, as in the code. The rainfall is then still bounded but not given in closed form, and the stored times are not stated either: the last reading of a station wins.
- `Drain.DrainAllDrains` and `Weather.RainAllAddsGallons` are stated for distinct configured names. When two configurations name the same puddle, its record is stepped twice. The general invariants of `Drain.DrainAll` and `Weather.RainAll` still hold.

=== FILE: common.dfy ===
/** Shared vocabulary of the roof-drain model: optional values, the tick clock
    that stands for DateTimeOffset, ordinal case-insensitive name comparison and
    the LINQ `Average` of a sequence of doubles (doubles are modelled as reals). */
module Common {

  /** A value that may be missing (a C# null reference, an absent ETag). */
  datatype Option<+T> = None | Some(value: T)

  /** DateTimeOffset and TimeSpan count 100-nanosecond ticks. */
  type Ticks = int

  const TicksPerMinute: int := 600_000_000
  const TicksPerHour: int := 36_000_000_000

  /** TimeSpan.TotalMinutes of a span of `span` ticks. */
  function TotalMinutes(span: Ticks): real
  {
    span as real / TicksPerMinute as real
  }

  /** TimeSpan.TotalHours of a span of `span` ticks. */
  function TotalHours(span: Ticks): real
  {
    span as real / TicksPerHour as real
  }

  /** Upper-casing of one character as StringComparison.OrdinalIgnoreCase does it,
      restricted to the ASCII letters. */
  function FoldChar(c: char): (u: char)
    ensures 'a' <= c <= 'z' ==> 'A' <= u <= 'Z'
    ensures !('a' <= c <= 'z') ==> u == c
  {
    if 'a' <= c <= 'z' then (c as int - 32) as char else c
  }

  function FoldCase(s: string): (r: string)
    ensures |r| == |s|
    ensures forall i :: 0 <= i < |s| ==> r[i] == FoldChar(s[i])
  {
    seq(|s|, i requires 0 <= i < |s| => FoldChar(s[i]))
  }

  /** String.Equals(a, b, StringComparison.OrdinalIgnoreCase). */
  predicate NameEquals(a: string, b: string)
  {
    FoldCase(a) == FoldCase(b)
  }

  /** Two names are the same name exactly when they have the same length and
      differ, position by position, at most in the case of an ASCII letter. */
  lemma NameEqualsIgnoresCase(a: string, b: string)
    ensures NameEquals(a, b) <==>
      && |a| == |b|
      && forall i :: 0 <= i < |a| ==> a[i] == b[i] || FoldChar(a[i]) == b[i] || a[i] == FoldChar(b[i])
  {
    if NameEquals(a, b) {
      forall i | 0 <= i < |a|
        ensures a[i] == b[i] || FoldChar(a[i]) == b[i] || a[i] == FoldChar(b[i])
      {
        assert FoldCase(a)[i] == FoldCase(b)[i];
      }
    }
  }

  lemma ProductNonNegative(a: real, b: real)
    requires 0.0 <= a && 0.0 <= b
    ensures 0.0 <= a * b
  {
  }

  function Max(a: real, b: real): (m: real)
    ensures m >= a && m >= b
    ensures m == a || m == b
  {
    if a >= b then a else b
  }

  function Min(a: real, b: real): (m: real)
    ensures m <= a && m <= b
    ensures m == a || m == b
  {
    if a <= b then a else b
  }

  function Sum(xs: seq<real>): real
  {
    if |xs| == 0 then 0.0 else xs[0] + Sum(xs[1..])
  }

  /** Enumerable.Average over a non-empty sequence. */
  function Mean(xs: seq<real>): real
    requires |xs| > 0
  {
    Sum(xs) / |xs| as real
  }

  predicate AllWithin(xs: seq<real>, lo: real, hi: real)
  {
    forall i :: 0 <= i < |xs| ==> lo <= xs[i] <= hi
  }

  lemma {:induction false} SumBounds(xs: seq<real>, lo: real, hi: real)
    requires AllWithin(xs, lo, hi)
    ensures lo * |xs| as real <= Sum(xs) <= hi * |xs| as real
  {
    if |xs| > 0 {
      assert AllWithin(xs[1..], lo, hi) by {
        forall i | 0 <= i < |xs[1..]| ensures lo <= xs[1..][i] <= hi {
          assert xs[1..][i] == xs[i + 1];
        }
      }
      SumBounds(xs[1..], lo, hi);
      assert |xs| as real == (|xs| - 1) as real + 1.0;
    }
  }

  /** An average never leaves the interval that holds every averaged value. */
  lemma MeanWithin(xs: seq<real>, lo: real, hi: real)
    requires |xs| > 0
    requires AllWithin(xs, lo, hi)
    ensures lo <= Mean(xs) <= hi
  {
    SumBounds(xs, lo, hi);
    var n := |xs| as real;
    assert lo * n <= Sum(xs) <= hi * n;
    assert Mean(xs) * n == Sum(xs);
  }

  lemma {:induction false} SumAppend(a: seq<real>, b: seq<real>)
    ensures Sum(a + b) == Sum(a) + Sum(b)
  {
    if |a| == 0 {
      assert a + b == b;
    } else {
      assert (a + b)[1..] == a[1..] + b;
      SumAppend(a[1..], b);
    }
  }

  /** Taking one value out of a sequence takes it out of the sum. */
  lemma SumRemove(b: seq<real>, k: int)
    requires 0 <= k < |b|
    ensures Sum(b) == b[k] + Sum(b[..k] + b[k + 1..])
  {
    var pre, x, post := b[..k], b[k], b[k + 1..];
    assert b == pre + ([x] + post);
    SumAppend(pre, [x] + post);
    SumAppend(pre, post);
    assert ([x] + post)[1..] == post;
    assert Sum([x] + post) == x + Sum(post);
  }

  /** The values `f` gives for each element, in order (a LINQ Select). */
  function MapReal<T>(xs: seq<T>, f: T -> real): (r: seq<real>)
    ensures |r| == |xs|
    ensures forall i :: 0 <= i < |xs| ==> r[i] == f(xs[i])
  {
    seq(|xs|, i requires 0 <= i < |xs| => f(xs[i]))
  }

  lemma MapRealCons<T>(xs: seq<T>, f: T -> real)
    requires |xs| > 0
    ensures MapReal(xs, f) == [f(xs[0])] + MapReal(xs[1..], f)
  {
  }

  /** Functions that agree on the elements map them alike. */
  lemma MapRealAgree<T>(xs: seq<T>, f: T -> real, g: T -> real)
    requires forall i :: 0 <= i < |xs| ==> f(xs[i]) == g(xs[i])
    ensures MapReal(xs, f) == MapReal(xs, g)
  {
  }

  lemma MultisetRemove<T>(a: seq<T>, b: seq<T>, k: int)
    requires multiset(a) == multiset(b)
    requires |a| > 0 && 0 <= k < |b| && b[k] == a[0]
    ensures multiset(a[1..]) == multiset(b[..k] + b[k + 1..])
  {
    var x := a[0];
    assert a == [x] + a[1..];
    assert b == b[..k] + [x] + b[k + 1..];
    var rest := multiset(b[..k] + b[k + 1..]);
    assert rest == multiset(b[..k]) + multiset(b[k + 1..]);
    assert multiset(a) == multiset{x} + multiset(a[1..]);
    assert multiset(b) == multiset{x} + rest;
    assert multiset(a[1..]) == multiset(a) - multiset{x};
    assert rest == multiset(b) - multiset{x};
  }

  /** A sum over the elements of a collection, hence an average, does not depend
      on the order in which the elements are enumerated. */
  lemma {:induction false} SumPermutation<T>(a: seq<T>, b: seq<T>, f: T -> real)
    requires multiset(a) == multiset(b)
    ensures Sum(MapReal(a, f)) == Sum(MapReal(b, f))
    decreases |a|
  {
    if |a| == 0 {
      assert |b| == |multiset(b)| == 0;
    } else {
      assert a[0] in multiset(b);
      var k :| 0 <= k < |b| && b[k] == a[0];
      var rest := b[..k] + b[k + 1..];
      MultisetRemove(a, b, k);
      SumPermutation(a[1..], rest, f);
      assert MapReal(a, f)[1..] == MapReal(a[1..], f);
      var mb := MapReal(b, f);
      SumRemove(mb, k);
      assert mb[..k] + mb[k + 1..] == MapReal(rest, f);
    }
  }
}

=== FILE: drain.dfy ===
/** The drain report cycle of the update service: each configured puddle loses
    the water drained since the last report plus a fixed evaporation allowance,
    and its draining flag is recomputed by a Schmitt trigger that switches on
    above a one-sixteenth-inch depth and off only once the puddle is empty. */
module Drain {
  import opened Common
  import opened Models
  import opened StateService
  import opened Registry

  /** A report later than this after the previous one is treated as anomalous. */
  const OverlyLongDrainDelay: Ticks := 3 * TicksPerHour
  /** Gallons lost to evaporation per report (about five gallons a day). */
  const EvaporationGallons: real := 0.1
  /** The flag is only ever set above this temperature, in degrees Celsius. */
  const DrainingMinimumTemperature: real := 4.0
  const GallonsPerCubicFoot: real := 7.48052

  /** The volume of water one sixteenth of an inch deep over the puddle's area:
      the upper switching point of the trigger. */
  function SixteenthInchInGallons(config: PuddleConfig): real
  {
    (config.areaSquareFeet * (0.0625 / 12.0)) * GallonsPerCubicFoot
  }

  /** Whether the time since the last report, read at `elapsedNow`, is too long
      for the report to be used. */
  predicate LongDelay(p: PuddleState, elapsedNow: Ticks)
  {
    elapsedNow - p.lastDrainObservationTime > OverlyLongDrainDelay
  }

  /** Gallons removed for an interval of `elapsed` ticks: the drain's flow while
      the flag was set, plus evaporation. A negative interval is not guarded. */
  function GallonsDrained(p: PuddleState, config: PuddleConfig, elapsed: Ticks): (g: real)
    ensures elapsed >= 0 && config.drainRateGallonsPerMinute >= 0.0 ==> g >= EvaporationGallons
  {
    (if p.drainedAtLastObservationTime then TotalMinutes(elapsed) * config.drainRateGallonsPerMinute else 0.0)
      + EvaporationGallons
  }

  /** One puddle of UpdateFromRoofDrainAsync. The service reads the clock twice:
      `now` is stored as the new observation time, `elapsedNow` is the reading
      the elapsed time is measured to. */
  function DrainPuddle(p: PuddleState, config: PuddleConfig, now: Ticks, elapsedNow: Ticks): (r: PuddleState)
    ensures r.name == p.name && r.temperature == p.temperature
    ensures r.lastDrainObservationTime == now
    // an anomalous delay leaves the volume alone; otherwise it is clamped at zero
    ensures LongDelay(p, elapsedNow) ==> r.estimatedGallonsRemaining == p.estimatedGallonsRemaining
    ensures !LongDelay(p, elapsedNow) ==> r.estimatedGallonsRemaining >= 0.0
    // with the flag clear only evaporation is taken off
    ensures !LongDelay(p, elapsedNow) && !p.drainedAtLastObservationTime ==>
      r.estimatedGallonsRemaining == Max(0.0, p.estimatedGallonsRemaining - EvaporationGallons)
    // with a forward clock and a non-negative rate the volume never grows
    ensures (!LongDelay(p, elapsedNow) && elapsedNow >= p.lastDrainObservationTime
             && config.drainRateGallonsPerMinute >= 0.0) ==>
      r.estimatedGallonsRemaining <= Max(0.0, p.estimatedGallonsRemaining - EvaporationGallons)
    // the trigger: never at or below 4 degrees ...
    ensures p.temperature <= DrainingMinimumTemperature ==> !r.drainedAtLastObservationTime
    // ... latched while water remains ...
    ensures (p.temperature > DrainingMinimumTemperature && p.drainedAtLastObservationTime
             && r.estimatedGallonsRemaining > 0.0) ==> r.drainedAtLastObservationTime
    // ... switched on above the sixteenth-inch volume ...
    ensures (p.temperature > DrainingMinimumTemperature
             && r.estimatedGallonsRemaining > SixteenthInchInGallons(config)) ==> r.drainedAtLastObservationTime
    // ... never set on an empty puddle of non-negative area ...
    ensures config.areaSquareFeet >= 0.0 && r.estimatedGallonsRemaining <= 0.0 ==> !r.drainedAtLastObservationTime
    // ... and in no other case
    ensures r.drainedAtLastObservationTime ==>
      && p.temperature > DrainingMinimumTemperature
      && ((p.drainedAtLastObservationTime && r.estimatedGallonsRemaining > 0.0)
          || r.estimatedGallonsRemaining > SixteenthInchInGallons(config))
  {
    var remaining :=
      if LongDelay(p, elapsedNow) then p.estimatedGallonsRemaining
      else Max(0.0, p.estimatedGallonsRemaining - GallonsDrained(p, config, elapsedNow - p.lastDrainObservationTime));
    var draining :=
      p.temperature > DrainingMinimumTemperature &&
      ((p.drainedAtLastObservationTime && remaining > 0.0) || remaining > SixteenthInchInGallons(config));
    p.(lastDrainObservationTime := now,
       estimatedGallonsRemaining := remaining,
       drainedAtLastObservationTime := draining)
  }

  /** While the flag is set the drain's flow over a normal interval is removed on
      top of evaporation. */
  lemma DrainingRemovesFlow(p: PuddleState, config: PuddleConfig, now: Ticks, elapsedNow: Ticks)
    requires !LongDelay(p, elapsedNow) && p.drainedAtLastObservationTime
    ensures DrainPuddle(p, config, now, elapsedNow).estimatedGallonsRemaining ==
      Max(0.0, p.estimatedGallonsRemaining
               - (TotalMinutes(elapsedNow - p.lastDrainObservationTime) * config.drainRateGallonsPerMinute
                  + EvaporationGallons))
  {
  }

  /** A clock read earlier than the stored observation time makes the interval
      negative; while the flag is set the negative flow is subtracted, so the
      puddle gains water. */
  lemma ClockSkewAddsWater(p: PuddleState, config: PuddleConfig, now: Ticks, elapsedNow: Ticks)
    requires !LongDelay(p, elapsedNow) && p.drainedAtLastObservationTime
    requires p.estimatedGallonsRemaining >= 0.0
    requires TotalMinutes(elapsedNow - p.lastDrainObservationTime) * config.drainRateGallonsPerMinute
             < -EvaporationGallons
    ensures DrainPuddle(p, config, now, elapsedNow).estimatedGallonsRemaining > p.estimatedGallonsRemaining
  {
  }

  /** A freshly created puddle carries temperature zero, so drain reports alone
      never set its flag: it needs a weather cycle first. */
  lemma FreshPuddleNeverDrains(name: string, created: Ticks, config: PuddleConfig,
                               now: Ticks, elapsedNow: Ticks, later: Ticks, laterElapsed: Ticks)
    ensures var first := DrainPuddle(InitializePuddle(name, created), config, now, elapsedNow);
      && !first.drainedAtLastObservationTime
      && !DrainPuddle(first, config, later, laterElapsed).drainedAtLastObservationTime
  {
  }

  /** A fresh record is stamped one hour before creation, so a report within two
      hours of its creation is used normally. */
  lemma FreshPuddleReportIsNormal(name: string, created: Ticks, elapsedNow: Ticks)
    requires elapsedNow <= created + 2 * TicksPerHour
    ensures !LongDelay(InitializePuddle(name, created), elapsedNow)
  {
  }

  /** Worked example: ten gallons, draining at five gallons a minute, one minute
      later: 5.1 gallons go, 4.9 remain, and the flag stays on. */
  lemma DrainExample()
    ensures var p := PuddleState("north", 0, true, 10.0, 10.0);
      var r := DrainPuddle(p, PuddleConfig("north", 100.0, 5.0), TicksPerMinute, TicksPerMinute);
      r.estimatedGallonsRemaining == 4.9 && r.drainedAtLastObservationTime
  {
  }

  /** The three clock readings one puddle's step takes: at the creation of a
      missing record, for the stored observation time, and for the elapsed time. */
  datatype DrainClock = DrainClock(created: Ticks, stamp: Ticks, elapsedNow: Ticks)

  /** The draining flag is only ever set at temperatures above 4 degrees. */
  predicate FlagsWarm(ps: seq<PuddleState>)
  {
    forall j :: 0 <= j < |ps| && ps[j].drainedAtLastObservationTime ==> ps[j].temperature > DrainingMinimumTemperature
  }

  /** One configured puddle: get or add its record, then advance it. */
  function DrainOne(ps: seq<PuddleState>, config: PuddleConfig, clock: DrainClock): (r: seq<PuddleState>)
    ensures |ps| <= |r| <= |ps| + 1
    // a record is appended exactly for a name not yet known
    ensures IndexOfName(PuddleNames(ps), config.name).Some? ==> |r| == |ps|
    ensures IndexOfName(PuddleNames(ps), config.name).None? ==> |r| == |ps| + 1 && r[|ps|].name == config.name
    ensures forall j :: 0 <= j < |ps| ==> r[j].name == ps[j].name && r[j].temperature == ps[j].temperature
    ensures forall j :: 0 <= j < |ps| && !NameEquals(ps[j].name, config.name) ==> r[j] == ps[j]
    ensures IndexOfName(PuddleNames(r), config.name).Some?
    ensures r[IndexOfName(PuddleNames(r), config.name).value].lastDrainObservationTime == clock.stamp
    // the selected record, found or freshly created, is advanced by the drain step
    ensures r[IndexOfName(PuddleNames(r), config.name).value] ==
      DrainPuddle(PuddleOrDefault(ps, config.name, clock.created), config, clock.stamp, clock.elapsedNow)
    ensures |r| > |ps| ==> r[|ps|].name == config.name && r[|ps|].temperature == 0.0
    ensures WaterNonNegative(ps) ==> WaterNonNegative(r)
    ensures FlagsWarm(ps) ==> FlagsWarm(r)
  {
    var (ps1, i) := GetOrAddPuddle(ps, config.name, clock.created);
    var p := DrainPuddle(ps1[i], config, clock.stamp, clock.elapsedNow);
    PuddleNamesUpdate(ps1, i, p);
    ps1[i := p]
  }

  /** A step for one configuration leaves what every other name selects alone. */
  lemma DrainOneKeepsOthers(ps: seq<PuddleState>, config: PuddleConfig, clock: DrainClock, name: string, now: Ticks)
    requires !NameEquals(name, config.name)
    ensures PuddleOrDefault(DrainOne(ps, config, clock), name, now) == PuddleOrDefault(ps, name, now)
  {
    var r := DrainOne(ps, config, clock);
    match IndexOfName(PuddleNames(ps), name)
    case Some(j) =>
      IndexOfNameExtend(PuddleNames(ps), PuddleNames(r), name);
    case None =>
      if |r| > |ps| {
        assert PuddleNames(r) == PuddleNames(ps) + [config.name];
        IndexOfNameAppendOther(PuddleNames(ps), config.name, name);
      } else {
        assert PuddleNames(r) == PuddleNames(ps);
      }
  }

  /** All configured puddles, in configuration order. */
  function DrainAll(ps: seq<PuddleState>, configs: seq<PuddleConfig>, clocks: seq<DrainClock>): (r: seq<PuddleState>)
    requires |clocks| == |configs|
    ensures |ps| <= |r|
    ensures forall j :: 0 <= j < |ps| ==> r[j].name == ps[j].name && r[j].temperature == ps[j].temperature
    ensures WaterNonNegative(ps) ==> WaterNonNegative(r)
    ensures FlagsWarm(ps) ==> FlagsWarm(r)
    decreases |configs|
  {
    if |configs| == 0 then ps
    else DrainAll(DrainOne(ps, configs[0], clocks[0]), configs[1..], clocks[1..])
  }

  /** The drain pass never creates a second record for a name. */
  lemma {:induction false} DrainAllKeepsNamesUnique(ps: seq<PuddleState>, configs: seq<PuddleConfig>, clocks: seq<DrainClock>)
    requires |clocks| == |configs|
    requires UniqueNames(PuddleNames(ps))
    ensures UniqueNames(PuddleNames(DrainAll(ps, configs, clocks)))
    decreases |configs|
  {
    if |configs| > 0 {
      var ps1 := DrainOne(ps, configs[0], clocks[0]);
      StepKeepsNamesUnique(PuddleNames(ps), PuddleNames(ps1), configs[0].name);
      DrainAllKeepsNamesUnique(ps1, configs[1..], clocks[1..]);
    }
  }

  lemma {:induction false} DrainAllLeavesOthers(ps: seq<PuddleState>, configs: seq<PuddleConfig>, clocks: seq<DrainClock>)
    requires |clocks| == |configs|
    ensures forall j :: 0 <= j < |ps| && Unconfigured(ps[j].name, configs) ==> DrainAll(ps, configs, clocks)[j] == ps[j]
    decreases |configs|
  {
    if |configs| > 0 {
      var ps1 := DrainOne(ps, configs[0], clocks[0]);
      DrainAllLeavesOthers(ps1, configs[1..], clocks[1..]);
      forall j | 0 <= j < |ps| && Unconfigured(ps[j].name, configs)
        ensures Unconfigured(ps1[j].name, configs[1..])
      {
        assert !NameEquals(ps[j].name, configs[0].name);
        forall k | 0 <= k < |configs[1..]|
          ensures !NameEquals(ps1[j].name, configs[1..][k].name)
        {
          assert configs[1..][k] == configs[k + 1];
        }
      }
    }
  }

  /** A name that has a record keeps it, at the same position, through the pass. */
  lemma DrainAllKeepsLookup(ps: seq<PuddleState>, name: string, configs: seq<PuddleConfig>, clocks: seq<DrainClock>)
    requires |clocks| == |configs|
    requires IndexOfName(PuddleNames(ps), name).Some?
    ensures IndexOfName(PuddleNames(DrainAll(ps, configs, clocks)), name) == IndexOfName(PuddleNames(ps), name)
  {
    IndexOfNameExtend(PuddleNames(ps), PuddleNames(DrainAll(ps, configs, clocks)), name);
  }

  /** After the cycle every configured name has a record. */
  lemma DrainAllCoversConfigs(ps: seq<PuddleState>, configs: seq<PuddleConfig>, clocks: seq<DrainClock>)
    requires |clocks| == |configs|
    ensures forall k :: 0 <= k < |configs| ==>
      IndexOfName(PuddleNames(DrainAll(ps, configs, clocks)), configs[k].name).Some?
  {
    forall k | 0 <= k < |configs|
      ensures IndexOfName(PuddleNames(DrainAll(ps, configs, clocks)), configs[k].name).Some?
    {
      DrainAllCoversConfig(ps, configs, clocks, k);
    }
  }

  /** The `k`-th configured name has a record after the cycle: its own step
      finds or adds one, and the later steps keep every found record in place. */
  lemma {:induction false} DrainAllCoversConfig(ps: seq<PuddleState>, configs: seq<PuddleConfig>, clocks: seq<DrainClock>, k: nat)
    requires |clocks| == |configs| && k < |configs|
    ensures IndexOfName(PuddleNames(DrainAll(ps, configs, clocks)), configs[k].name).Some?
    decreases |configs|
  {
    var ps1 := DrainOne(ps, configs[0], clocks[0]);
    if k == 0 {
      DrainAllKeepsLookup(ps1, configs[0].name, configs[1..], clocks[1..]);
    } else {
      DrainAllCoversConfig(ps1, configs[1..], clocks[1..], k - 1);
      assert configs[1..][k - 1] == configs[k];
    }
  }

  /** With distinct configured names, each configured puddle's record carries the
      observation time of its own step. */
  lemma {:induction false} DrainAllStamps(ps: seq<PuddleState>, configs: seq<PuddleConfig>, clocks: seq<DrainClock>)
    requires |clocks| == |configs|
    requires UniqueNames(ConfigNames(configs))
    ensures var r := DrainAll(ps, configs, clocks);
      forall k :: 0 <= k < |configs| ==>
        && IndexOfName(PuddleNames(r), configs[k].name).Some?
        && r[IndexOfName(PuddleNames(r), configs[k].name).value].lastDrainObservationTime == clocks[k].stamp
    decreases |configs|
  {
    DrainAllCoversConfigs(ps, configs, clocks);
    if |configs| > 0 {
      var ps1 := DrainOne(ps, configs[0], clocks[0]);
      var r := DrainAll(ps1, configs[1..], clocks[1..]);
      UniqueConfigNamesTail(configs);
      DrainAllStamps(ps1, configs[1..], clocks[1..]);
      var n0 := configs[0].name;
      var i0 := IndexOfName(PuddleNames(ps1), n0).value;
      IndexOfNameExtend(PuddleNames(ps1), PuddleNames(r), n0);
      assert Unconfigured(ps1[i0].name, configs[1..]);
      DrainAllLeavesOthers(ps1, configs[1..], clocks[1..]);
      forall k | 0 < k < |configs|
        ensures r[IndexOfName(PuddleNames(r), configs[k].name).value].lastDrainObservationTime == clocks[k].stamp
      {
        assert configs[k] == configs[1..][k - 1];
        assert clocks[k] == clocks[1..][k - 1];
      }
    }
  }

  /** With distinct configured names, each configured puddle ends as the drain
      step of its own configuration and clocks applied to the record it had
      before the cycle, or to a fresh default record. */
  lemma DrainAllDrains(ps: seq<PuddleState>, configs: seq<PuddleConfig>, clocks: seq<DrainClock>)
    requires |clocks| == |configs|
    requires UniqueNames(ConfigNames(configs))
    ensures var r := DrainAll(ps, configs, clocks);
      forall k :: 0 <= k < |configs| ==>
        && IndexOfName(PuddleNames(r), configs[k].name).Some?
        && r[IndexOfName(PuddleNames(r), configs[k].name).value] ==
           DrainPuddle(PuddleOrDefault(ps, configs[k].name, clocks[k].created), configs[k],
                       clocks[k].stamp, clocks[k].elapsedNow)
  {
    forall k | 0 <= k < |configs|
      ensures var r := DrainAll(ps, configs, clocks);
        && IndexOfName(PuddleNames(r), configs[k].name).Some?
        && r[IndexOfName(PuddleNames(r), configs[k].name).value] ==
           DrainPuddle(PuddleOrDefault(ps, configs[k].name, clocks[k].created), configs[k],
                       clocks[k].stamp, clocks[k].elapsedNow)
    {
      DrainAllDrainsConfig(ps, configs, clocks, k);
    }
  }

  /** The `k`-th configuration's record: its own step advances it, earlier steps
      for other names do not touch it, and later ones leave it in place. */
  lemma {:induction false} DrainAllDrainsConfig(ps: seq<PuddleState>, configs: seq<PuddleConfig>,
                                                clocks: seq<DrainClock>, k: nat)
    requires |clocks| == |configs| && k < |configs|
    requires UniqueNames(ConfigNames(configs))
    ensures var r := DrainAll(ps, configs, clocks);
      && IndexOfName(PuddleNames(r), configs[k].name).Some?
      && r[IndexOfName(PuddleNames(r), configs[k].name).value] ==
         DrainPuddle(PuddleOrDefault(ps, configs[k].name, clocks[k].created), configs[k],
                     clocks[k].stamp, clocks[k].elapsedNow)
    decreases |configs|
  {
    var ps1 := DrainOne(ps, configs[0], clocks[0]);
    UniqueConfigNamesTail(configs);
    if k == 0 {
      var n0 := configs[0].name;
      var i0 := IndexOfName(PuddleNames(ps1), n0).value;
      DrainAllKeepsLookup(ps1, n0, configs[1..], clocks[1..]);
      assert Unconfigured(ps1[i0].name, configs[1..]);
      DrainAllLeavesOthers(ps1, configs[1..], clocks[1..]);
    } else {
      DrainAllDrainsConfig(ps1, configs[1..], clocks[1..], k - 1);
      assert configs[1..][k - 1] == configs[k];
      assert clocks[1..][k - 1] == clocks[k];
      assert ConfigNames(configs)[0] == configs[0].name && ConfigNames(configs)[k] == configs[k].name;
      DrainOneKeepsOthers(ps, configs[0], clocks[0], configs[k].name, clocks[k].created);
    }
  }

  /** What UpdateFromRoofDrainAsync hands back: the save's outcome and the
      puddle records, whose flags tell each drain whether to run. */
  datatype DrainReport = DrainReport(saved: Saved, puddles: seq<PuddleState>)

  /** UpdateFromRoofDrainAsync: load from `store`, advance every configured
      puddle, save with the loaded token into `current`, the store as it stands
      when the save is issued (another cycle may have written in between).
      `loadNow` is the clock reading used if no document is stored yet. */
  function UpdateFromRoofDrain(store: Store, current: Store, config: Configuration, loadNow: Ticks,
                               clocks: seq<DrainClock>): (r: DrainReport)
    requires |clocks| == |config.puddles|
    ensures r.puddles == DrainAll(Load(store, config, loadNow).state.puddles, config.puddles, clocks)
    // the save is applied exactly when nothing was written since the load, or
    // when the load found no document; a refused save changes nothing
    ensures r.saved.written <==> Accepts(current, Load(store, config, loadNow).etag)
    ensures !r.saved.written ==> r.saved.store == current
    ensures Valid(store) && current == store ==> r.saved.written
    ensures Valid(current) ==> Valid(r.saved.store)
    ensures r.saved.written ==>
      && r.saved.store.document.Some?
      && r.saved.store.document.value.state.puddles == r.puddles
      && r.saved.store.document.value.state.stations == Load(store, config, loadNow).state.stations
    ensures WaterNonNegative(Load(store, config, loadNow).state.puddles) ==> WaterNonNegative(r.puddles)
  {
    var loaded := Load(store, config, loadNow);
    var puddles := DrainAll(loaded.state.puddles, config.puddles, clocks);
    DrainReport(Save(current, loaded.state.(puddles := puddles), loaded.etag), puddles)
  }
}

=== FILE: firmware.dfy ===
/** The drain controller's firmware. Each pass of the main loop reads the clock
    (milliseconds in an unsigned 32-bit counter that wraps), maybe the
    temperature, the drain and button inputs and the serial line, and decides
    whether to flush or prime the siphon pumps. Pin reads, sensor readings and
    the clock are sampled inputs here; pump writes become lists of commands. */
module Firmware {
  import opened Common

  datatype PinState = Low | High

  /** An unsigned 32-bit value, as millis() returns. */
  newtype u32 = x: int | 0 <= x < 0x1_0000_0000

  const Modulus: int := 0x1_0000_0000

  /** Reduction modulo 2^32: C's conversion of a result to uint32_t. */
  function Wrap(x: int): (r: u32)
    ensures 0 <= x < Modulus ==> r as int == x
    ensures -Modulus <= x < 0 ==> r as int == x + Modulus
  {
    (x % Modulus) as u32
  }

  /** The uint32_t difference `now - earlier`: the milliseconds since `earlier`,
      right across one wrap of the counter. */
  function Since(now: u32, earlier: u32): (d: u32)
    ensures now >= earlier ==> d as int == now as int - earlier as int
    ensures now < earlier ==> d as int == now as int - earlier as int + Modulus
  {
    Wrap(now as int - earlier as int)
  }

  /** Stepping a clock reading back by `d` and measuring again gives `d`. */
  lemma SinceStepBack(now: u32, d: u32)
    ensures Since(now, Wrap(now as int - d as int)) == d
  {
  }

  /** The pump selection. Its numeric value is a two-bit mask: bit 0 drives
      output X, bit 1 output Y. */
  datatype Pump = NoPump | A | B | C

  const LowerFreezingCutoffCelsius: real := 1.0
  const UpperFreezingCutoffCelsius: real := 1.5
  /** One hour. */
  const RetryDrainInitialDelay: u32 := 3600000
  /** One week. */
  const RetryDrainMaxDelay: u32 := 604800000
  /** One hour. */
  const RetryPrimeWhileDrainingDelay: u32 := 3600000
  /** Thirty seconds. */
  const ReadTemperatureDelay: u32 := 30000

  /** The holds and time-outs of prime's two waits. */
  const ReadyHoldMilliseconds: u32 := 5000
  const ReadyMaxWaitMilliseconds: u32 := 30000
  const DrainHoldMilliseconds: u32 := 10000
  const DrainMaxWaitMilliseconds: u32 := 60000

  function PumpMask(pump: Pump): bv8
  {
    match pump
    case NoPump => 0
    case A => 1
    case B => 2
    case C => 3
  }

  /** The levels of the two pump outputs. */
  datatype PumpOutputs = PumpOutputs(x: PinState, y: PinState)

  /** Both pumps off. */
  const PumpsOff: PumpOutputs := PumpOutputs(Low, Low)

  /** The selection a pair of output levels stands for. */
  function PumpOf(outputs: PumpOutputs): Pump
  {
    match outputs
    case PumpOutputs(Low, Low) => NoPump
    case PumpOutputs(High, Low) => A
    case PumpOutputs(Low, High) => B
    case PumpOutputs(High, High) => C
  }

  /** enablePump: output X takes bit 0 of the mask, output Y bit 1. */
  function EnablePump(pump: Pump): (o: PumpOutputs)
    ensures o.x == High <==> pump == A || pump == C
    ensures o.y == High <==> pump == B || pump == C
    ensures PumpOf(o) == pump
    ensures o == PumpsOff <==> pump == NoPump
  {
    var mask := PumpMask(pump);
    PumpOutputs(if mask & 1 != 0 then High else Low,
                if (mask >> 1) & 1 != 0 then High else Low)
  }

  /** The output levels after a series of enablePump calls from `entry`. */
  function OutputsAfter(entry: PumpOutputs, commands: seq<Pump>): PumpOutputs
  {
    if |commands| == 0 then entry else EnablePump(commands[|commands| - 1])
  }

  /** A series of enablePump calls that leaves both pumps off. */
  predicate EndsOff(commands: seq<Pump>)
  {
    |commands| == 0 || commands[|commands| - 1] == NoPump
  }

  lemma EndsOffConcat(first: seq<Pump>, second: seq<Pump>)
    requires EndsOff(first) && EndsOff(second)
    ensures EndsOff(first + second)
  {
  }

  /** One sample taken inside tryWaitForState's loop: the clock and the pin. */
  datatype Sample = Sample(time: u32, state: PinState)

  /** The clock reading from which the pin has held `test` after sample `i`:
      the start of the wait if every sample so far matched. */
  function HoldFrom(start: u32, test: PinState, samples: seq<Sample>, i: nat): u32
    requires i < |samples|
  {
    if samples[i].state != test then samples[i].time
    else if i == 0 then start
    else HoldFrom(start, test, samples, i - 1)
  }

  /** tryWaitForState's loop condition after sample `i`: the pin has held `test`
      for less than `hold`, and less than `maxWait` has passed since `start`. */
  predicate KeepsWaiting(start: u32, test: PinState, hold: u32, maxWait: u32, samples: seq<Sample>, i: nat)
    requires i < |samples|
  {
    Since(samples[i].time, HoldFrom(start, test, samples, i)) < hold && Since(samples[i].time, start) < maxWait
  }

  datatype WaitResult = WaitResult(state: PinState, samplesRead: nat)

  /** tryWaitForState, given the clock reading on entry and the samples its loop
      would take. The loop runs until it stops, so running out of samples means
      it has not returned yet: `None`. */
  method TryWaitForState(start: u32, test: PinState, hold: u32, maxWait: u32, samples: seq<Sample>)
    returns (r: Option<WaitResult>)
    ensures r.Some? ==>
      && 1 <= r.value.samplesRead <= |samples|
      && r.value.state == samples[r.value.samplesRead - 1].state
      && !KeepsWaiting(start, test, hold, maxWait, samples, r.value.samplesRead - 1)
      && forall j :: 0 <= j < r.value.samplesRead - 1 ==> KeepsWaiting(start, test, hold, maxWait, samples, j)
    ensures r.None? ==> forall j :: 0 <= j < |samples| ==> KeepsWaiting(start, test, hold, maxWait, samples, j)
    // a state other than `test` comes back only once the wait has timed out
    ensures r.Some? && r.value.state != test && hold > 0 ==>
      Since(samples[r.value.samplesRead - 1].time, start) >= maxWait
  {
    var holdFrom := start;
    var i := 0;
    while i < |samples|
      invariant 0 <= i <= |samples|
      invariant holdFrom == if i == 0 then start else HoldFrom(start, test, samples, i - 1)
      invariant forall j :: 0 <= j < i ==> KeepsWaiting(start, test, hold, maxWait, samples, j)
    {
      var now := samples[i].time;
      var inputState := samples[i].state;
      holdFrom := if inputState == test then holdFrom else now;
      if !(Since(now, holdFrom) < hold && Since(now, start) < maxWait) {
        return Some(WaitResult(inputState, i + 1));
      }
      i := i + 1;
    }
    return None;
  }

  /** What prime's two waits returned: `ready` for the prime input to settle
      High, then `drained` for it to fall Low once the pump runs. */
  datatype PrimeWaits = PrimeWaits(ready: PinState, drained: PinState)

  /** One prime: whether it succeeded, and the enablePump calls it made. */
  datatype PrimeRun = PrimeRun(primed: bool, commands: seq<Pump>)

  /** prime(pump). */
  function Prime(pump: Pump, waits: PrimeWaits): (r: PrimeRun)
    ensures r.primed <==> waits.ready == High && waits.drained == Low
    // the pump runs only once the ready wait succeeded ...
    ensures waits.ready == Low <==> r.commands == []
    ensures |r.commands| > 0 ==> r.commands[0] == pump
    // ... and whichever way prime returns, it has switched the pumps off
    ensures EndsOff(r.commands)
    // prime drives no pump but its own, and that one only once the input is ready
    ensures forall q :: q in r.commands <==> waits.ready == High && (q == pump || q == NoPump)
  {
    match waits.ready
    case Low => PrimeRun(false, [])
    case High =>
      match waits.drained
      case High => PrimeRun(false, [pump, NoPump])
      case Low => PrimeRun(true, [pump, NoPump])
  }

  /** Pumps off on entry to prime are off on its exit, whatever the waits see. */
  lemma PrimeLeavesPumpsOff(pump: Pump, waits: PrimeWaits)
    ensures OutputsAfter(PumpsOff, Prime(pump, waits).commands) == PumpsOff
  {
  }

  /** runFlushSequence: each selection in turn, then off. */
  function FlushCommands(): (commands: seq<Pump>)
    ensures EndsOff(commands)
    ensures A in commands && B in commands && C in commands
  {
    [A, B, C, NoPump]
  }

  /** What the three primes of one runPrimeSequence saw. */
  datatype SequenceWaits = SequenceWaits(a: PrimeWaits, b: PrimeWaits, c: PrimeWaits)

  /** runPrimeSequence: prime A, then B, then C, whatever each returns. */
  function PrimeSequenceCommands(waits: SequenceWaits): (commands: seq<Pump>)
    ensures EndsOff(commands)
    // each pump runs exactly when its own prime found the input ready
    ensures A in commands <==> waits.a.ready == High
    ensures B in commands <==> waits.b.ready == High
    ensures C in commands <==> waits.c.ready == High
  {
    var a := Prime(A, waits.a).commands;
    var b := Prime(B, waits.b).commands;
    var c := Prime(C, waits.c).commands;
    EndsOffConcat(a, b);
    EndsOffConcat(a + b, c);
    assert A in a + b + c <==> A in a by { assert A !in b && A !in c; }
    assert B in a + b + c <==> B in b by { assert B !in a && B !in c; }
    assert C in a + b + c <==> C in c by { assert C !in a && C !in b; }
    a + b + c
  }

  /** A plausible outdoor reading; anything else is a brown-out artefact. */
  predicate Plausible(celsius: real)
  {
    -50.0 <= celsius <= 50.0
  }

  datatype TemperatureRead = TemperatureRead(celsius: real, samplesRead: nat)

  /** safeReadTemperature, given the sensor readings it would take: the first
      plausible one. Running out of readings means it has not returned: `None`. */
  method SafeReadTemperature(readings: seq<real>) returns (r: Option<TemperatureRead>)
    ensures r.Some? ==>
      && 1 <= r.value.samplesRead <= |readings|
      && r.value.celsius == readings[r.value.samplesRead - 1]
      && Plausible(r.value.celsius)
      && forall j :: 0 <= j < r.value.samplesRead - 1 ==> !Plausible(readings[j])
    ensures r.None? ==> forall j :: 0 <= j < |readings| ==> !Plausible(readings[j])
  {
    var i := 0;
    while i < |readings|
      invariant 0 <= i <= |readings|
      invariant forall j :: 0 <= j < i ==> !Plausible(readings[j])
    {
      var result := readings[i];
      if !(result < -50.0 || result > 50.0) {
        return Some(TemperatureRead(result, i + 1));
      }
      i := i + 1;
    }
    return None;
  }

  /** The firmware's global variables. */
  datatype DrainState = DrainState(
    currentTemperature: real,
    isFrozen: bool,
    timeOfLastPrime: u32,
    timeOfLastTempCheck: u32,
    timeOfLastDrain: u32,
    retryDrainCurrentDelay: u32,
    userLedState: PinState)

  /** The retry delay lies between one hour and one week. */
  predicate DelayInRange(delay: u32)
  {
    RetryDrainInitialDelay <= delay <= RetryDrainMaxDelay
  }

  /** setup, with clock reading `now` and the temperature safeReadTemperature
      returned. setup never assigns the current temperature, which keeps a
      global's zero. */
  function Setup(now: u32, temperature: real): (s: DrainState)
    ensures s.isFrozen <==> temperature < LowerFreezingCutoffCelsius
    ensures s.retryDrainCurrentDelay == RetryDrainMaxDelay && DelayInRange(s.retryDrainCurrentDelay)
    ensures s.timeOfLastPrime == now && s.timeOfLastDrain == now
    // the first temperature check is due once the clock moves past `now`
    ensures Since(now, s.timeOfLastTempCheck) == ReadTemperatureDelay
    ensures s.userLedState == Low && s.currentTemperature == 0.0
  {
    SinceStepBack(now, ReadTemperatureDelay);
    DrainState(0.0, temperature < LowerFreezingCutoffCelsius, now, Wrap(now as int - ReadTemperatureDelay as int), now,
               RetryDrainMaxDelay, Low)
  }

  /** The freeze hysteresis: the new flag, and whether the pumps get flushed. */
  function Freeze(temperature: real, isFrozen: bool): (r: (bool, bool))
    ensures r.0 && !isFrozen ==> temperature < LowerFreezingCutoffCelsius
    ensures !r.0 && isFrozen ==> temperature > UpperFreezingCutoffCelsius
    ensures temperature < LowerFreezingCutoffCelsius ==> r.0
    ensures temperature > UpperFreezingCutoffCelsius ==> !r.0
    ensures LowerFreezingCutoffCelsius <= temperature <= UpperFreezingCutoffCelsius ==> r.0 == isFrozen
    ensures r.1 <==> r.0 && !isFrozen
  {
    if temperature < LowerFreezingCutoffCelsius && !isFrozen then (true, true)
    else if temperature > UpperFreezingCutoffCelsius && isFrozen then (false, false)
    else (isFrozen, false)
  }

  /** The exponential backoff: double the delay (a shift, which can wrap) and
      clamp it to the range. */
  function Backoff(delay: u32): (r: u32)
    ensures DelayInRange(r)
    ensures DelayInRange(delay) ==> r >= delay
    ensures DelayInRange(delay) && delay <= RetryDrainMaxDelay / 2 ==> r as int == 2 * delay as int
    ensures DelayInRange(delay) && delay > RetryDrainMaxDelay / 2 ==> r == RetryDrainMaxDelay
  {
    var shifted := Wrap(2 * delay as int);
    if shifted > RetryDrainMaxDelay then RetryDrainMaxDelay
    else if shifted < RetryDrainInitialDelay then RetryDrainInitialDelay
    else shifted
  }

  /** The LED level for the next pass: it blinks while the drain input is Low. */
  function NextLed(led: PinState, drain: PinState): (next: PinState)
    ensures next == High <==> led == Low && drain == Low
  {
    match led
    case High => Low
    case Low => if drain.Low? then High else Low
  }

  /** What one pass of the loop reads. `temperature` is what safeReadTemperature
      returns when the check is due; `loneD` says the serial buffer held exactly
      the character 'd'. */
  datatype LoopInput = LoopInput(
    now: u32,
    temperature: real,
    drain: PinState,
    button: PinState,
    loneD: bool)

  /** What the loop asks of the pumps, in order. */
  datatype Action = PumpsOffAction | FlushAction | PrimeSequenceAction

  /** One pass: the next state, the actions in order, the LED level written. */
  datatype LoopOutput = LoopOutput(state: DrainState, actions: seq<Action>, led: PinState)

  /** How many prime sequences a pass runs. */
  function CountPrimes(actions: seq<Action>): nat
  {
    multiset(actions)[PrimeSequenceAction]
  }

  /** A manual trigger: the button held Low, or a lone 'd' on the serial line. */
  predicate ManualTrigger(input: LoopInput)
  {
    input.button == Low || input.loneD
  }

  /** The priming schedule after a pass: the two time stamps, the retry delay,
      and how many prime sequences the pass runs. */
  datatype Schedule = Schedule(timeOfLastPrime: u32, timeOfLastDrain: u32, retryDrainCurrentDelay: u32, primes: nat)

  /** The manual trigger, then either the draining branch (re-prime hourly) or
      the backoff branch (re-prime when the drain has been quiet too long). */
  function Reschedule(s: DrainState, now: u32, frozen: bool, manual: bool, draining: bool): (r: Schedule)
    ensures DelayInRange(s.retryDrainCurrentDelay) ==> DelayInRange(r.retryDrainCurrentDelay)
    ensures manual ==>
      && r.timeOfLastPrime == now && r.timeOfLastDrain == now
      && r.retryDrainCurrentDelay == RetryDrainInitialDelay && r.primes == 1
    ensures draining ==> r.timeOfLastDrain == now && r.retryDrainCurrentDelay == RetryDrainInitialDelay
    ensures !manual && draining ==>
      (r.primes == 1 <==> Since(now, s.timeOfLastPrime) > RetryPrimeWhileDrainingDelay)
    ensures !manual && !draining ==>
      && r.timeOfLastDrain == s.timeOfLastDrain
      && (r.primes == 1 <==> !frozen && Since(now, s.timeOfLastDrain) > s.retryDrainCurrentDelay)
      && r.retryDrainCurrentDelay ==
           (if r.primes == 1 then Backoff(s.retryDrainCurrentDelay) else s.retryDrainCurrentDelay)
    ensures r.primes <= 1
    ensures r.primes == 1 ==> r.timeOfLastPrime == now
    ensures r.primes == 0 ==> r.timeOfLastPrime == s.timeOfLastPrime
  {
    var lastPrime := if manual then now else s.timeOfLastPrime;
    var lastDrain := if manual then now else s.timeOfLastDrain;
    var delay := if manual then RetryDrainInitialDelay else s.retryDrainCurrentDelay;
    var reprime :=
      if draining then Since(now, lastPrime) > RetryPrimeWhileDrainingDelay
      else !frozen && Since(now, lastDrain) > delay;
    Schedule(
      if reprime then now else lastPrime,
      if draining then now else lastDrain,
      if draining then RetryDrainInitialDelay else if reprime then Backoff(delay) else delay,
      (if manual then 1 else 0) + (if reprime then 1 else 0))
  }

  /** loop. */
  function Loop(s: DrainState, input: LoopInput): (r: LoopOutput)
    ensures |r.actions| > 0 && r.actions[0] == PumpsOffAction
    // the temperature is re-read at most every thirty seconds
    ensures Since(input.now, s.timeOfLastTempCheck) > ReadTemperatureDelay ==>
      r.state.timeOfLastTempCheck == input.now && r.state.currentTemperature == input.temperature
    ensures Since(input.now, s.timeOfLastTempCheck) <= ReadTemperatureDelay ==>
      r.state.timeOfLastTempCheck == s.timeOfLastTempCheck && r.state.currentTemperature == s.currentTemperature
    // the freeze flag follows the hysteresis, and a flush goes with freezing
    ensures r.state.isFrozen == Freeze(r.state.currentTemperature, s.isFrozen).0
    ensures FlushAction in r.actions <==> r.state.isFrozen && !s.isFrozen
    // the retry delay stays between one hour and one week
    ensures DelayInRange(s.retryDrainCurrentDelay) ==> DelayInRange(r.state.retryDrainCurrentDelay)
    // the LED shows last pass's level, and is High at most every other pass
    ensures r.led == s.userLedState
    ensures r.state.userLedState == High <==> s.userLedState == Low && input.drain == Low
  {
    var now := input.now;
    var checkDue := Since(now, s.timeOfLastTempCheck) > ReadTemperatureDelay;
    var lastTempCheck := if checkDue then now else s.timeOfLastTempCheck;
    var temperature := if checkDue then input.temperature else s.currentTemperature;
    var (frozen, flush) := Freeze(temperature, s.isFrozen);
    var manual := ManualTrigger(input);
    var next := Reschedule(s, now, frozen, manual, input.drain.Low?);
    var actions :=
      [PumpsOffAction]
      + (if flush then [FlushAction] else [])
      + seq(next.primes, _ => PrimeSequenceAction);
    LoopOutput(
      DrainState(
        temperature,
        frozen,
        next.timeOfLastPrime,
        lastTempCheck,
        next.timeOfLastDrain,
        next.retryDrainCurrentDelay,
        NextLed(s.userLedState, input.drain)),
      actions,
      s.userLedState)
  }

  /** The priming rules of one pass, in terms of the actions it takes. */
  lemma LoopPrimingRules(s: DrainState, input: LoopInput)
    // a manual trigger primes exactly once and restarts the drain clock and backoff
    ensures ManualTrigger(input) ==>
      && Loop(s, input).state.timeOfLastPrime == input.now
      && Loop(s, input).state.timeOfLastDrain == input.now
      && Loop(s, input).state.retryDrainCurrentDelay == RetryDrainInitialDelay
      && CountPrimes(Loop(s, input).actions) == 1
    // draining restarts the drain clock and backoff, and re-primes at most hourly
    ensures input.drain == Low ==>
      && Loop(s, input).state.timeOfLastDrain == input.now
      && Loop(s, input).state.retryDrainCurrentDelay == RetryDrainInitialDelay
    ensures !ManualTrigger(input) && input.drain == Low ==>
      (CountPrimes(Loop(s, input).actions) == 1 <==> Since(input.now, s.timeOfLastPrime) > RetryPrimeWhileDrainingDelay)
    // not draining: back off, and only while not frozen
    ensures !ManualTrigger(input) && input.drain == High ==>
      && Loop(s, input).state.timeOfLastDrain == s.timeOfLastDrain
      && (CountPrimes(Loop(s, input).actions) == 1 <==>
            !Loop(s, input).state.isFrozen && Since(input.now, s.timeOfLastDrain) > s.retryDrainCurrentDelay)
      && Loop(s, input).state.retryDrainCurrentDelay ==
           (if CountPrimes(Loop(s, input).actions) == 1 then Backoff(s.retryDrainCurrentDelay) else s.retryDrainCurrentDelay)
    // at most one prime sequence per pass, and a prime stamps the clock
    ensures CountPrimes(Loop(s, input).actions) <= 1
    ensures CountPrimes(Loop(s, input).actions) == 1 ==> Loop(s, input).state.timeOfLastPrime == input.now
    ensures CountPrimes(Loop(s, input).actions) == 0 ==> Loop(s, input).state.timeOfLastPrime == s.timeOfLastPrime
  {
  }

  /** The pump commands of one action, given what its primes saw. */
  function ActionCommands(action: Action, waits: SequenceWaits): (commands: seq<Pump>)
    ensures EndsOff(commands)
    ensures action == PumpsOffAction ==> commands == [NoPump]
  {
    match action
    case PumpsOffAction => [NoPump]
    case FlushAction => FlushCommands()
    case PrimeSequenceAction => PrimeSequenceCommands(waits)
  }

  /** The pump commands of a pass's actions in order. */
  function PassCommands(actions: seq<Action>, waits: seq<SequenceWaits>): seq<Pump>
    requires |waits| == |actions|
  {
    if |actions| == 0 then []
    else ActionCommands(actions[0], waits[0]) + PassCommands(actions[1..], waits[1..])
  }

  /** Whatever the pumps were doing on entry and whatever the primes see, every
      pass of the loop leaves both pumps off. */
  lemma {:induction false} LoopLeavesPumpsOff(s: DrainState, input: LoopInput, waits: seq<SequenceWaits>, entry: PumpOutputs)
    requires |waits| == |Loop(s, input).actions|
    ensures OutputsAfter(entry, PassCommands(Loop(s, input).actions, waits)) == PumpsOff
  {
    var actions := Loop(s, input).actions;
    PassCommandsEndOff(actions, waits);
    assert PassCommands(actions, waits) == [NoPump] + PassCommands(actions[1..], waits[1..]);
  }

  lemma {:induction false} PassCommandsEndOff(actions: seq<Action>, waits: seq<SequenceWaits>)
    requires |waits| == |actions|
    ensures EndsOff(PassCommands(actions, waits))
    decreases |actions|
  {
    if |actions| > 0 {
      PassCommandsEndOff(actions[1..], waits[1..]);
      EndsOffConcat(ActionCommands(actions[0], waits[0]), PassCommands(actions[1..], waits[1..]));
    }
  }

  /** Several passes of the loop: the final state and the LED levels written. */
  function Run(s: DrainState, inputs: seq<LoopInput>): (r: (DrainState, seq<PinState>))
    ensures |r.1| == |inputs|
    ensures |inputs| > 0 ==> r.1[0] == s.userLedState
    decreases |inputs|
  {
    if |inputs| == 0 then (s, [])
    else
      var step := Loop(s, inputs[0]);
      var rest := Run(step.state, inputs[1..]);
      (rest.0, [step.led] + rest.1)
  }

  /** No two consecutive levels are High. */
  predicate Blinks(leds: seq<PinState>)
  {
    forall i :: 0 <= i < |leds| - 1 ==> !(leds[i] == High && leds[i + 1] == High)
  }

  /** The LED never shows High on two passes in a row, whatever the inputs. */
  lemma {:induction false} RunNeverLightsTwice(s: DrainState, inputs: seq<LoopInput>)
    ensures Blinks(Run(s, inputs).1)
    decreases |inputs|
  {
    if |inputs| > 0 {
      var step := Loop(s, inputs[0]);
      RunNeverLightsTwice(step.state, inputs[1..]);
      var leds := Run(s, inputs).1;
      var rest := Run(step.state, inputs[1..]).1;
      assert leds == [step.led] + rest;
      assert Blinks(rest);
      forall i | 0 <= i < |leds| - 1
        ensures !(leds[i] == High && leds[i + 1] == High)
      {
        if i > 0 {
          assert leds[i] == rest[i - 1] && leds[i + 1] == rest[i];
        } else {
          assert |inputs[1..]| > 0;
          assert rest[0] == step.state.userLedState;
          assert leds[0] == step.led && leds[1] == rest[0];
          if leds[0] == High {
            assert s.userLedState.High?;
            assert !step.state.userLedState.High?;
          }
        }
      }
    }
  }

  /** From setup on, the retry delay stays between one hour and one week. */
  lemma {:induction false} RunKeepsDelayInRange(now: u32, temperature: real, inputs: seq<LoopInput>)
    ensures DelayInRange(Run(Setup(now, temperature), inputs).0.retryDrainCurrentDelay)
  {
    RunFromKeepsDelayInRange(Setup(now, temperature), inputs);
  }

  lemma {:induction false} RunFromKeepsDelayInRange(s: DrainState, inputs: seq<LoopInput>)
    requires DelayInRange(s.retryDrainCurrentDelay)
    ensures DelayInRange(Run(s, inputs).0.retryDrainCurrentDelay)
    decreases |inputs|
  {
    if |inputs| > 0 {
      RunFromKeepsDelayInRange(Loop(s, inputs[0]).state, inputs[1..]);
    }
  }
}

=== FILE: models.dfy ===
/** The persisted records of the roof-drain service and the configuration it is
    given. Every record is immutable here; the service's in-place mutation of a
    record becomes the construction of an updated copy. */
module Models {
  import opened Common

  /** One modelled roof catch-basin. */
  datatype PuddleState = PuddleState(
    name: string,
    lastDrainObservationTime: Ticks,
    /** The hysteresis flag: whether the drain should run after the last report. */
    drainedAtLastObservationTime: bool,
    estimatedGallonsRemaining: real,
    /** Last known ambient temperature in degrees Celsius. */
    temperature: real)

  /** What is remembered about one weather station. */
  datatype StationState = StationState(name: string, lastObservationTime: Ticks)

  /** The root document kept in the versioned store. */
  datatype ApplicationState = ApplicationState(
    puddles: seq<PuddleState>,
    stations: seq<StationState>)

  /** Configuration of one drained puddle. */
  datatype PuddleConfig = PuddleConfig(
    name: string,
    areaSquareFeet: real,
    drainRateGallonsPerMinute: real)

  /** One successful weather-station reading, as collected before the fold. */
  datatype Reading = Reading(
    station: string,
    precipitationInchesPerHour: real,
    temperatureCelsius: real,
    observationTime: Ticks)

  function PuddleNames(ps: seq<PuddleState>): (names: seq<string>)
    ensures |names| == |ps|
    ensures forall i :: 0 <= i < |ps| ==> names[i] == ps[i].name
  {
    seq(|ps|, i requires 0 <= i < |ps| => ps[i].name)
  }

  function StationNames(ss: seq<StationState>): (names: seq<string>)
    ensures |names| == |ss|
    ensures forall i :: 0 <= i < |ss| ==> names[i] == ss[i].name
  {
    seq(|ss|, i requires 0 <= i < |ss| => ss[i].name)
  }

  function ConfigNames(configs: seq<PuddleConfig>): (names: seq<string>)
    ensures |names| == |configs|
    ensures forall k :: 0 <= k < |configs| ==> names[k] == configs[k].name
  {
    seq(|configs|, k requires 0 <= k < |configs| => configs[k].name)
  }

  /** No configuration names `name`, ignoring case. */
  predicate Unconfigured(name: string, configs: seq<PuddleConfig>)
  {
    forall k :: 0 <= k < |configs| ==> !NameEquals(name, configs[k].name)
  }

  /** No puddle holds a negative volume of water. */
  predicate WaterNonNegative(ps: seq<PuddleState>)
  {
    forall i :: 0 <= i < |ps| ==> ps[i].estimatedGallonsRemaining >= 0.0
  }

  /** No configured puddle has a negative area. */
  predicate AreasNonNegative(configs: seq<PuddleConfig>)
  {
    forall k :: 0 <= k < |configs| ==> configs[k].areaSquareFeet >= 0.0
  }
}

=== FILE: registry.dfy ===
/** Lookup of puddle and station records by name, ignoring case, and the
    get-or-add helpers of the update service that append a default record the
    first time a name is seen. */
module Registry {
  import opened Common
  import opened Models
  import opened StateService

  /** Position of the first name equal to `name` ignoring case (FirstOrDefault). */
  function IndexOfName(names: seq<string>, name: string): (r: Option<nat>)
    ensures r.Some? ==> r.value < |names| && NameEquals(names[r.value], name)
    ensures r.Some? ==> forall j :: 0 <= j < r.value ==> !NameEquals(names[j], name)
    ensures r.None? ==> forall j :: 0 <= j < |names| ==> !NameEquals(names[j], name)
  {
    if |names| == 0 then None
    else if NameEquals(names[0], name) then Some(0)
    else
      match IndexOfName(names[1..], name)
      case None => None
      case Some(i) => Some(i + 1)
  }

  /** The first match of a name does not move when the names up to it are kept
      and others are added or changed after it. */
  lemma IndexOfNameExtend(names: seq<string>, names': seq<string>, name: string)
    requires IndexOfName(names, name).Some?
    requires |names| <= |names'|
    requires forall j :: 0 <= j <= IndexOfName(names, name).value ==> names'[j] == names[j]
    ensures IndexOfName(names', name) == IndexOfName(names, name)
  {
  }

  /** Lookup sees a name only up to case. */
  lemma IndexOfNameSameName(names: seq<string>, a: string, b: string)
    requires NameEquals(a, b)
    ensures IndexOfName(names, a) == IndexOfName(names, b)
  {
  }

  /** Appending a name that is different from `name` does not make `name` appear. */
  lemma IndexOfNameAppendOther(names: seq<string>, extra: string, name: string)
    requires IndexOfName(names, name).None?
    requires !NameEquals(extra, name)
    ensures IndexOfName(names + [extra], name).None?
  {
  }

  /** Lookup depends on the names alone: replacing a record by one of the same
      name does not change any lookup. */
  lemma PuddleNamesUpdate(ps: seq<PuddleState>, i: int, p: PuddleState)
    requires 0 <= i < |ps| && p.name == ps[i].name
    ensures PuddleNames(ps[i := p]) == PuddleNames(ps)
  {
  }

  lemma StationNamesUpdate(ss: seq<StationState>, i: int, s: StationState)
    requires 0 <= i < |ss| && s.name == ss[i].name
    ensures StationNames(ss[i := s]) == StationNames(ss)
  {
  }

  lemma PuddleNamesAppend(ps: seq<PuddleState>, p: PuddleState)
    ensures PuddleNames(ps + [p]) == PuddleNames(ps) + [p.name]
  {
  }

  lemma StationNamesAppend(ss: seq<StationState>, s: StationState)
    ensures StationNames(ss + [s]) == StationNames(ss) + [s.name]
  {
  }

  /** GetOrAddRoofPuddleState: the first record whose name matches, or a new
      default record appended at the end. The returned index locates the record. */
  function GetOrAddPuddle(ps: seq<PuddleState>, name: string, now: Ticks): (r: (seq<PuddleState>, nat))
    ensures r.1 < |r.0| && NameEquals(r.0[r.1].name, name)
    ensures forall j :: 0 <= j < r.1 ==> !NameEquals(r.0[j].name, name)
    ensures (exists j :: 0 <= j < |ps| && NameEquals(ps[j].name, name)) ==> r.0 == ps
    ensures (forall j :: 0 <= j < |ps| ==> !NameEquals(ps[j].name, name)) ==>
      && r.0 == ps + [InitializePuddle(name, now)]
      && r.1 == |ps|
    ensures r.0[r.1] == PuddleOrDefault(ps, name, now)
  {
    match IndexOfName(PuddleNames(ps), name)
    case Some(i) => (ps, i)
    case None => (ps + [InitializePuddle(name, now)], |ps|)
  }

  /** The record a name selects, or the default record that a miss appends. */
  function PuddleOrDefault(ps: seq<PuddleState>, name: string, now: Ticks): PuddleState
  {
    match IndexOfName(PuddleNames(ps), name)
    case Some(i) => ps[i]
    case None => InitializePuddle(name, now)
  }

  /** GetOrAddWeatherStationState, with the same contract for stations. */
  function GetOrAddStation(ss: seq<StationState>, name: string, now: Ticks): (r: (seq<StationState>, nat))
    ensures r.1 < |r.0| && NameEquals(r.0[r.1].name, name)
    ensures forall j :: 0 <= j < r.1 ==> !NameEquals(r.0[j].name, name)
    ensures (exists j :: 0 <= j < |ss| && NameEquals(ss[j].name, name)) ==> r.0 == ss
    ensures (forall j :: 0 <= j < |ss| ==> !NameEquals(ss[j].name, name)) ==>
      && r.0 == ss + [InitializeStation(name, now)]
      && r.1 == |ss|
  {
    match IndexOfName(StationNames(ss), name)
    case Some(i) => (ss, i)
    case None => (ss + [InitializeStation(name, now)], |ss|)
  }

  /** No two records share a name, ignoring case. */
  predicate UniqueNames(names: seq<string>)
  {
    forall i, j :: 0 <= i < j < |names| ==> !NameEquals(names[i], names[j])
  }

  /** Distinct configured names stay distinct without the first, which none of
      the rest repeats. */
  lemma UniqueConfigNamesTail(configs: seq<PuddleConfig>)
    requires |configs| > 0 && UniqueNames(ConfigNames(configs))
    ensures UniqueNames(ConfigNames(configs[1..]))
    ensures Unconfigured(configs[0].name, configs[1..])
  {
  }

  /** Get-or-add keeps names unique: it appends only names not yet present. */
  lemma GetOrAddPuddleKeepsNamesUnique(ps: seq<PuddleState>, name: string, now: Ticks)
    requires UniqueNames(PuddleNames(ps))
    ensures UniqueNames(PuddleNames(GetOrAddPuddle(ps, name, now).0))
  {
  }

  lemma GetOrAddStationKeepsNamesUnique(ss: seq<StationState>, name: string, now: Ticks)
    requires UniqueNames(StationNames(ss))
    ensures UniqueNames(StationNames(GetOrAddStation(ss, name, now).0))
  {
  }

  /** A step that keeps the existing names and appends at most one name, and
      that only when no existing name matches it, keeps names unique. */
  lemma StepKeepsNamesUnique(names: seq<string>, names': seq<string>, name: string)
    requires UniqueNames(names)
    requires |names| <= |names'| <= |names| + 1
    requires forall j :: 0 <= j < |names| ==> names'[j] == names[j]
    requires |names'| > |names| ==> IndexOfName(names, name).None? && names'[|names|] == name
    ensures UniqueNames(names')
  {
  }

  /** The stored observation time of a station, or the time a freshly added
      record would carry when the station is not yet known. */
  function StoredTime(ss: seq<StationState>, name: string, now: Ticks): Ticks
  {
    match IndexOfName(StationNames(ss), name)
    case Some(i) => ss[i].lastObservationTime
    case None => InitializeStation(name, now).lastObservationTime
  }
}

=== FILE: state_service.dfy ===
/** The state service: default records, the initial document built from the
    configuration, and the versioned store that loads and saves the document.
    The store itself (the blob service and its ETag check) lies outside the
    service; it is modelled abstractly: every write stamps a fresh version, and a
    write that names a version is applied only while that version is current. */
module StateService {
  import opened Common
  import opened Models

  /** The configuration the service reads: the puddles and the station names. */
  datatype Configuration = Configuration(
    puddles: seq<PuddleConfig>,
    stations: seq<string>)

  /** InitializeRoofPuddleState at clock reading `now`; the temperature keeps the
      C# default of zero. */
  function InitializePuddle(name: string, now: Ticks): PuddleState
  {
    PuddleState(name, now - TicksPerHour, false, 0.0, 0.0)
  }

  /** InitializeWeatherStationState at clock reading `now`. */
  function InitializeStation(name: string, now: Ticks): StationState
  {
    StationState(name, now - TicksPerHour)
  }

  /** The document used when none has been stored yet. */
  function InitialState(config: Configuration, now: Ticks): ApplicationState
  {
    ApplicationState(
      seq(|config.puddles|, i requires 0 <= i < |config.puddles| => InitializePuddle(config.puddles[i].name, now)),
      seq(|config.stations|, i requires 0 <= i < |config.stations| => InitializeStation(config.stations[i], now)))
  }

  /** A stored document together with its version tag (the blob's ETag). */
  datatype Document = Document(state: ApplicationState, etag: nat)

  /** The store: at most one document, and the next version tag to hand out. */
  datatype Store = Store(document: Option<Document>, nextEtag: nat)

  /** Version tags are handed out in increasing order. */
  predicate Valid(store: Store)
  {
    store.document.Some? ==> store.document.value.etag < store.nextEtag
  }

  /** What a load returns: the state and the token to pass back to the save. */
  datatype Loaded = Loaded(state: ApplicationState, etag: Option<nat>)

  /** The outcome of a save: the store afterwards, and whether the write was applied. */
  datatype Saved = Saved(store: Store, written: bool)

  /** GetApplicationStateAsync. */
  function Load(store: Store, config: Configuration, now: Ticks): (r: Loaded)
    ensures store.document.None? ==> r.etag.None?
    ensures store.document.None? ==>
      && |r.state.puddles| == |config.puddles|
      && (forall i :: 0 <= i < |config.puddles| ==>
            && r.state.puddles[i].name == config.puddles[i].name
            && r.state.puddles[i].estimatedGallonsRemaining == 0.0
            && r.state.puddles[i].lastDrainObservationTime == now - TicksPerHour
            && !r.state.puddles[i].drainedAtLastObservationTime
            && r.state.puddles[i].temperature == 0.0)
      && |r.state.stations| == |config.stations|
      && (forall i :: 0 <= i < |config.stations| ==>
            && r.state.stations[i].name == config.stations[i]
            && r.state.stations[i].lastObservationTime == now - TicksPerHour)
    ensures store.document.Some? ==>
      r.state == store.document.value.state && r.etag == Some(store.document.value.etag)
  {
    match store.document
    case None => Loaded(InitialState(config, now), None)
    case Some(doc) => Loaded(doc.state, Some(doc.etag))
  }

  /** Whether the store at save time meets the If-Match condition of `etag`. */
  predicate Accepts(current: Store, etag: Option<nat>)
  {
    etag.None? || (current.document.Some? && current.document.value.etag == etag.value)
  }

  /** SetApplicationStateAsync: the token is the If-Match condition; no token
      means no condition at all. */
  function Save(store: Store, state: ApplicationState, etag: Option<nat>): (r: Saved)
    ensures r.written <==>
      etag.None? || (store.document.Some? && store.document.value.etag == etag.value)
    ensures !r.written ==> r.store == store
    ensures r.written ==>
      && r.store.document.Some?
      && r.store.document.value.state == state
    ensures r.written && Valid(store) && store.document.Some? ==>
      r.store.document.value.etag > store.document.value.etag
    ensures Valid(store) ==> Valid(r.store)
  {
    if etag.None? || (store.document.Some? && store.document.value.etag == etag.value) then
      Saved(Store(Some(Document(state, store.nextEtag)), store.nextEtag + 1), true)
    else
      Saved(store, false)
  }

  /** A save that carries the token of a load from the same store is applied, and
      a later load returns exactly what was saved. */
  lemma LoadThenSave(store: Store, config: Configuration, now: Ticks, state: ApplicationState)
    requires Valid(store)
    ensures var saved := Save(store, state, Load(store, config, now).etag);
      && saved.written
      && Load(saved.store, config, now).state == state
      && Load(saved.store, config, now).etag.Some?
  {
  }

  /** Two cycles load the same stored document; the first save wins, and the
      second, carrying the now stale token, is refused and leaves the first
      cycle's document in place. */
  lemma ConcurrentSaveConflicts(store: Store, config: Configuration, now: Ticks,
                                first: ApplicationState, second: ApplicationState)
    requires Valid(store) && store.document.Some?
    ensures var token := Load(store, config, now).etag;
      var afterFirst := Save(store, first, token);
      var afterSecond := Save(afterFirst.store, second, token);
      && afterFirst.written
      && !afterSecond.written
      && Load(afterSecond.store, config, now).state == first
  {
  }

  /** With no stored document both cycles hold the empty token, which sets no
      condition: both saves are applied and the second overwrites the first. */
  lemma FirstSavesRace(store: Store, config: Configuration, now: Ticks,
                       first: ApplicationState, second: ApplicationState)
    requires store.document.None?
    ensures var token := Load(store, config, now).etag;
      var afterFirst := Save(store, first, token);
      var afterSecond := Save(afterFirst.store, second, token);
      && afterFirst.written
      && afterSecond.written
      && Load(afterSecond.store, config, now).state == second
  {
  }
}

=== FILE: weather.dfy ===
/** The weather poll cycle of the update service, and the manual water override.
    The readings gathered from the stations arrive as an unordered bag; they are
    given here as a sequence in whatever order the bag enumerates them. Each
    reading contributes the rain that fell since that station's previous
    observation; the contributions are clamped, averaged, converted to gallons
    and added to every configured puddle, whose temperature becomes the average
    of the readings' temperatures. */
module Weather {
  import opened Common
  import opened Models
  import opened StateService
  import opened Registry

  /** Contributions above this many inches are treated as sensor errors. */
  const ImpossiblyCrazyStormInchesPerHour: real := 3.0
  /** A gap between observations longer than this contributes no rain. */
  const OverlyLongWeatherDelay: Ticks := 3 * TicksPerHour
  const SquareInchesPerSquareFoot: real := 144.0
  const CubicInchesPerGallon: real := 231.0

  /** The rain one reading adds, given its station's previously stored
      observation time. The test for a negative gap can never succeed, since the
      gap is only computed once the observation is known to be newer. */
  function Contribution(last: Ticks, reading: Reading): (c: real)
    ensures last >= reading.observationTime ==> c == 0.0
    ensures reading.observationTime - last > OverlyLongWeatherDelay ==> c == 0.0
    ensures last < reading.observationTime <= last + OverlyLongWeatherDelay ==>
      c == TotalHours(reading.observationTime - last) * reading.precipitationInchesPerHour
  {
    if last >= reading.observationTime then 0.0
    else
      var elapsed := reading.observationTime - last;
      if elapsed < 0 || elapsed > OverlyLongWeatherDelay then 0.0
      else TotalHours(elapsed) * reading.precipitationInchesPerHour
  }

  /** A reading with a non-negative rate adds at most three hours' worth of it. */
  lemma ContributionBounds(last: Ticks, reading: Reading)
    requires reading.precipitationInchesPerHour >= 0.0
    ensures 0.0 <= Contribution(last, reading) <= 3.0 * reading.precipitationInchesPerHour
  {
    var elapsed := reading.observationTime - last;
    var p := reading.precipitationInchesPerHour;
    if 0 < elapsed <= OverlyLongWeatherDelay {
      var h := TotalHours(elapsed);
      assert 0.0 <= h <= 3.0;
      ProductNonNegative(h, p);
      ProductNonNegative(3.0 - h, p);
      assert 3.0 * p - h * p == (3.0 - h) * p;
    }
  }

  /** One reading of the fold: get or add the station, remember its stored
      time, overwrite that time with the reading's, and return the contribution. */
  function StationStep(ss: seq<StationState>, reading: Reading, now: Ticks): (r: (seq<StationState>, real))
    ensures r.1 == Contribution(StoredTime(ss, reading.station, now), reading)
    // the stored time is overwritten even by an older or equal observation
    ensures StoredTime(r.0, reading.station, now) == reading.observationTime
    ensures forall m :: !NameEquals(m, reading.station) ==> StoredTime(r.0, m, now) == StoredTime(ss, m, now)
    ensures |ss| <= |r.0| <= |ss| + 1
    ensures forall j :: 0 <= j < |ss| ==> r.0[j].name == ss[j].name
    // a record is appended exactly for a station not yet known
    ensures IndexOfName(StationNames(ss), reading.station).Some? ==> |r.0| == |ss|
    ensures IndexOfName(StationNames(ss), reading.station).None? ==>
      |r.0| == |ss| + 1 && r.0[|ss|].name == reading.station
  {
    var (ss1, i) := GetOrAddStation(ss, reading.station, now);
    var s := ss1[i].(lastObservationTime := reading.observationTime);
    StationNamesUpdate(ss1, i, s);
    StationLookupAfterStep(ss, ss1, i, s, reading.station, now);
    (ss1[i := s], Contribution(ss1[i].lastObservationTime, reading))
  }

  lemma StationLookupAfterStep(ss: seq<StationState>, ss1: seq<StationState>, i: nat, s: StationState,
                               name: string, now: Ticks)
    requires (ss1, i) == GetOrAddStation(ss, name, now)
    requires s.name == ss1[i].name
    ensures ss1[i].lastObservationTime == StoredTime(ss, name, now)
    ensures forall m :: !NameEquals(m, name) ==> StoredTime(ss1[i := s], m, now) == StoredTime(ss, m, now)
  {
    StationNamesUpdate(ss1, i, s);
    if ss1 != ss {
      StationNamesAppend(ss, InitializeStation(name, now));
    }
    forall m | !NameEquals(m, name)
      ensures StoredTime(ss1[i := s], m, now) == StoredTime(ss, m, now)
    {
      if ss1 != ss {
        match IndexOfName(StationNames(ss), m)
        case Some(j) =>
          IndexOfNameExtend(StationNames(ss), StationNames(ss1), m);
        case None =>
          IndexOfNameAppendOther(StationNames(ss), name, m);
      }
    }
  }

  /** The fold over all readings in enumeration order: the stations afterwards
      and one contribution per reading. */
  function Fold(ss: seq<StationState>, readings: seq<Reading>, now: Ticks): (r: (seq<StationState>, seq<real>))
    ensures |r.1| == |readings|
    ensures |ss| <= |r.0|
    ensures forall j :: 0 <= j < |ss| ==> r.0[j].name == ss[j].name
    decreases |readings|
  {
    if |readings| == 0 then (ss, [])
    else
      var (ss1, c) := StationStep(ss, readings[0], now);
      var (ss2, cs) := Fold(ss1, readings[1..], now);
      (ss2, [c] + cs)
  }

  /** The fold never creates a second record for a station, even when a station
      reports twice. */
  lemma {:induction false} FoldKeepsNamesUnique(ss: seq<StationState>, readings: seq<Reading>, now: Ticks)
    requires UniqueNames(StationNames(ss))
    ensures UniqueNames(StationNames(Fold(ss, readings, now).0))
    decreases |readings|
  {
    if |readings| > 0 {
      var ss1 := StationStep(ss, readings[0], now).0;
      StepKeepsNamesUnique(StationNames(ss), StationNames(ss1), readings[0].station);
      FoldKeepsNamesUnique(ss1, readings[1..], now);
    }
  }

  /** No two readings come from the same station. */
  predicate DistinctStations(readings: seq<Reading>)
  {
    forall i, j :: 0 <= i < j < |readings| ==> !NameEquals(readings[i].station, readings[j].station)
  }

  /** The contribution of a reading measured against the state before the cycle. */
  function ContributionFrom(ss: seq<StationState>, now: Ticks): Reading -> real
  {
    (reading: Reading) => Contribution(StoredTime(ss, reading.station, now), reading)
  }

  /** When no two readings share a station, each reading is measured against its
      station's time from before the cycle, whatever the enumeration order. */
  lemma {:induction false} FoldUsesStoredTimes(ss: seq<StationState>, readings: seq<Reading>, now: Ticks)
    requires DistinctStations(readings)
    ensures Fold(ss, readings, now).1 == MapReal(readings, ContributionFrom(ss, now))
    decreases |readings|
  {
    if |readings| > 0 {
      var (ss1, c) := StationStep(ss, readings[0], now);
      var rest := readings[1..];
      assert Fold(ss, readings, now).1 == [c] + Fold(ss1, rest, now).1;
      DistinctStationsTail(readings);
      FoldUsesStoredTimes(ss1, rest, now);
      StepKeepsLaterContributions(ss, readings, now);
      MapRealAgree(rest, ContributionFrom(ss1, now), ContributionFrom(ss, now));
      MapRealCons(readings, ContributionFrom(ss, now));
    }
  }

  /** No reading of the bag comes from the station `name`. */
  predicate Unreported(name: string, readings: seq<Reading>)
  {
    forall i :: 0 <= i < |readings| ==> !NameEquals(name, readings[i].station)
  }

  /** When no two readings share a station, the fold stores each reading's
      observation time as its station's time, and every station no reading
      names keeps the time it had. */
  lemma {:induction false} FoldStoresTimes(ss: seq<StationState>, readings: seq<Reading>, now: Ticks)
    requires DistinctStations(readings)
    ensures forall i :: 0 <= i < |readings| ==>
      StoredTime(Fold(ss, readings, now).0, readings[i].station, now) == readings[i].observationTime
    ensures forall m :: Unreported(m, readings) ==>
      StoredTime(Fold(ss, readings, now).0, m, now) == StoredTime(ss, m, now)
    decreases |readings|
  {
    if |readings| > 0 {
      var ss1 := StationStep(ss, readings[0], now).0;
      var rest := readings[1..];
      assert Fold(ss, readings, now).0 == Fold(ss1, rest, now).0;
      DistinctStationsTail(readings);
      FoldStoresTimes(ss1, rest, now);
      assert Unreported(readings[0].station, rest) by {
        forall j | 0 <= j < |rest| ensures !NameEquals(readings[0].station, rest[j].station) {
          assert rest[j] == readings[j + 1];
        }
      }
      forall i | 0 < i < |readings|
        ensures StoredTime(Fold(ss, readings, now).0, readings[i].station, now) == readings[i].observationTime
      {
        assert readings[i] == rest[i - 1];
      }
      forall m | Unreported(m, readings)
        ensures StoredTime(Fold(ss, readings, now).0, m, now) == StoredTime(ss, m, now)
      {
        assert !NameEquals(m, readings[0].station);
        assert Unreported(m, rest) by {
          forall j | 0 <= j < |rest| ensures !NameEquals(m, rest[j].station) {
            assert rest[j] == readings[j + 1];
          }
        }
      }
    }
  }

  lemma DistinctStationsTail(readings: seq<Reading>)
    requires |readings| > 0 && DistinctStations(readings)
    ensures DistinctStations(readings[1..])
  {
  }

  /** The first reading's step leaves the stored time of every later station,
      hence its contribution, as it was. */
  lemma StepKeepsLaterContributions(ss: seq<StationState>, readings: seq<Reading>, now: Ticks)
    requires |readings| > 0 && DistinctStations(readings)
    ensures var ss1 := StationStep(ss, readings[0], now).0;
      forall i :: 0 <= i < |readings[1..]| ==>
        ContributionFrom(ss1, now)(readings[1..][i]) == ContributionFrom(ss, now)(readings[1..][i])
  {
  }

  /** Math.Max(0, Math.Min(3.0, x)). */
  function ClampRain(x: real): (c: real)
    ensures 0.0 <= c <= ImpossiblyCrazyStormInchesPerHour
    ensures 0.0 <= x <= ImpossiblyCrazyStormInchesPerHour ==> c == x
    // an out-of-range contribution is pulled to the nearest bound, not discarded
    ensures x > ImpossiblyCrazyStormInchesPerHour ==> c == ImpossiblyCrazyStormInchesPerHour
    ensures x < 0.0 ==> c == 0.0
  {
    Max(0.0, Min(ImpossiblyCrazyStormInchesPerHour, x))
  }

  /** Gallons that `rainfall` inches add to a puddle of the configured area. */
  function GallonsAdded(config: PuddleConfig, rainfall: real): (g: real)
    ensures config.areaSquareFeet >= 0.0 && rainfall >= 0.0 ==> g >= 0.0
  {
    (config.areaSquareFeet * SquareInchesPerSquareFoot * rainfall) / CubicInchesPerGallon
  }

  /** The aggregate of one poll. */
  datatype WeatherSample = WeatherSample(rainfall: real, temperature: real)

  /** What the poll cycle computes, when there is at least one reading. */
  datatype WeatherUpdate = WeatherUpdate(state: ApplicationState, sample: WeatherSample)

  function Temperature(reading: Reading): real
  {
    reading.temperatureCelsius
  }

  /** The lowest and the highest temperature among the readings. */
  function LowestTemperature(readings: seq<Reading>): (t: real)
    requires |readings| > 0
    ensures forall i :: 0 <= i < |readings| ==> t <= readings[i].temperatureCelsius
    ensures exists i :: 0 <= i < |readings| && t == readings[i].temperatureCelsius
  {
    if |readings| == 1 then readings[0].temperatureCelsius
    else
      var rest := LowestTemperature(readings[1..]);
      assert forall i :: 1 <= i < |readings| ==> readings[i] == readings[1..][i - 1];
      Min(readings[0].temperatureCelsius, rest)
  }

  function HighestTemperature(readings: seq<Reading>): (t: real)
    requires |readings| > 0
    ensures forall i :: 0 <= i < |readings| ==> readings[i].temperatureCelsius <= t
    ensures exists i :: 0 <= i < |readings| && t == readings[i].temperatureCelsius
  {
    if |readings| == 1 then readings[0].temperatureCelsius
    else
      var rest := HighestTemperature(readings[1..]);
      assert forall i :: 1 <= i < |readings| ==> readings[i] == readings[1..][i - 1];
      Max(readings[0].temperatureCelsius, rest)
  }

  /** Rainfall and temperature of a non-empty bag of readings: the averages of
      the clamped contributions and of the temperatures. */
  function Aggregate(ss: seq<StationState>, readings: seq<Reading>, now: Ticks): (r: (seq<StationState>, WeatherSample))
    requires |readings| > 0
    ensures 0.0 <= r.1.rainfall <= ImpossiblyCrazyStormInchesPerHour
    ensures LowestTemperature(readings) <= r.1.temperature <= HighestTemperature(readings)
    ensures r.1.temperature == Mean(MapReal(readings, Temperature))
    // with one reading per station, the rainfall is the mean of each reading's
    // clamped contribution measured against the stored times from before the poll
    ensures DistinctStations(readings) ==>
      r.1.rainfall == Mean(MapReal(readings, (reading: Reading) => ClampRain(ContributionFrom(ss, now)(reading))))
    // with one reading per station, each reported station now holds its
    // reading's observation time, and the other stations keep theirs
    ensures DistinctStations(readings) ==>
      && (forall i :: 0 <= i < |readings| ==> StoredTime(r.0, readings[i].station, now) == readings[i].observationTime)
      && (forall m :: Unreported(m, readings) ==> StoredTime(r.0, m, now) == StoredTime(ss, m, now))
    ensures r.0 == Fold(ss, readings, now).0
  {
    var (stations, contributions) := Fold(ss, readings, now);
    var clamped := MapReal(contributions, ClampRain);
    var temperatures := MapReal(readings, Temperature);
    MeanWithin(clamped, 0.0, ImpossiblyCrazyStormInchesPerHour);
    MeanWithin(temperatures, LowestTemperature(readings), HighestTemperature(readings));
    ClampedContributions(ss, readings, now);
    if DistinctStations(readings) then
      FoldStoresTimes(ss, readings, now);
      (stations, WeatherSample(Mean(clamped), Mean(temperatures)))
    else
      (stations, WeatherSample(Mean(clamped), Mean(temperatures)))
  }

  /** With one reading per station, the clamped contributions of the fold are the
      clamped contributions of the readings against the stored times. */
  lemma ClampedContributions(ss: seq<StationState>, readings: seq<Reading>, now: Ticks)
    ensures DistinctStations(readings) ==>
      MapReal(Fold(ss, readings, now).1, ClampRain) ==
      MapReal(readings, (reading: Reading) => ClampRain(ContributionFrom(ss, now)(reading)))
  {
    if DistinctStations(readings) {
      FoldUsesStoredTimes(ss, readings, now);
    }
  }

  /** Neither the rainfall nor the temperature depends on the order in which the
      bag enumerates the readings, as long as no station reports twice. */
  lemma {:induction false} AggregateIgnoresOrder(ss: seq<StationState>, readings: seq<Reading>,
                                                 reordered: seq<Reading>, now: Ticks)
    requires |readings| > 0
    requires multiset(readings) == multiset(reordered)
    requires DistinctStations(readings) && DistinctStations(reordered)
    ensures |reordered| > 0
    ensures Aggregate(ss, readings, now).1 == Aggregate(ss, reordered, now).1
  {
    assert |reordered| == |multiset(reordered)| == |multiset(readings)| == |readings|;
    var f := ContributionFrom(ss, now);
    var g := (reading: Reading) => ClampRain(f(reading));
    FoldUsesStoredTimes(ss, readings, now);
    FoldUsesStoredTimes(ss, reordered, now);
    assert MapReal(Fold(ss, readings, now).1, ClampRain) == MapReal(readings, g);
    assert MapReal(Fold(ss, reordered, now).1, ClampRain) == MapReal(reordered, g);
    SumPermutation(readings, reordered, g);
    SumPermutation(readings, reordered, Temperature);
  }

  /** One configured puddle receives the rain and the temperature. */
  function RainOne(ps: seq<PuddleState>, config: PuddleConfig, sample: WeatherSample, now: Ticks): (r: seq<PuddleState>)
    ensures |ps| <= |r| <= |ps| + 1
    // a record is appended exactly for a name not yet known
    ensures IndexOfName(PuddleNames(ps), config.name).Some? ==> |r| == |ps|
    ensures IndexOfName(PuddleNames(ps), config.name).None? ==> |r| == |ps| + 1 && r[|ps|].name == config.name
    ensures forall j :: 0 <= j < |ps| ==> r[j].name == ps[j].name
    ensures forall j :: 0 <= j < |ps| && !NameEquals(ps[j].name, config.name) ==> r[j] == ps[j]
    ensures IndexOfName(PuddleNames(r), config.name).Some?
    ensures r[IndexOfName(PuddleNames(r), config.name).value].temperature == sample.temperature
    // only the volume and the temperature of the selected record change
    ensures var q := PuddleOrDefault(ps, config.name, now);
      r[IndexOfName(PuddleNames(r), config.name).value] ==
        q.(estimatedGallonsRemaining := q.estimatedGallonsRemaining + GallonsAdded(config, sample.rainfall),
           temperature := sample.temperature)
    ensures RemainingOf(r, config.name) == RemainingOf(ps, config.name) + GallonsAdded(config, sample.rainfall)
    ensures config.areaSquareFeet >= 0.0 && sample.rainfall >= 0.0 ==>
      && (forall j :: 0 <= j < |ps| ==> r[j].estimatedGallonsRemaining >= ps[j].estimatedGallonsRemaining)
      && (WaterNonNegative(ps) ==> WaterNonNegative(r))
  {
    var (ps1, i) := GetOrAddPuddle(ps, config.name, now);
    var p := ps1[i].(estimatedGallonsRemaining := ps1[i].estimatedGallonsRemaining + GallonsAdded(config, sample.rainfall),
                     temperature := sample.temperature);
    PuddleNamesUpdate(ps1, i, p);
    PuddleNamesAppend(ps, InitializePuddle(config.name, now));
    ps1[i := p]
  }

  /** The volume of the record a name selects; a name without a record is about
      to get a fresh one, which holds no water. */
  function RemainingOf(ps: seq<PuddleState>, name: string): real
  {
    // the default record's volume does not depend on the clock reading
    PuddleOrDefault(ps, name, 0).estimatedGallonsRemaining
  }

  /** Every configured puddle, in configuration order. */
  function RainAll(ps: seq<PuddleState>, configs: seq<PuddleConfig>, sample: WeatherSample, now: Ticks): (r: seq<PuddleState>)
    ensures |ps| <= |r|
    ensures forall j :: 0 <= j < |ps| ==> r[j].name == ps[j].name
    ensures AreasNonNegative(configs) && sample.rainfall >= 0.0 ==>
      && (forall j :: 0 <= j < |ps| ==> r[j].estimatedGallonsRemaining >= ps[j].estimatedGallonsRemaining)
      && (WaterNonNegative(ps) ==> WaterNonNegative(r))
    decreases |configs|
  {
    if |configs| == 0 then ps
    else
      var ps1 := RainOne(ps, configs[0], sample, now);
      var r := RainAll(ps1, configs[1..], sample, now);
      assert AreasNonNegative(configs) ==> AreasNonNegative(configs[1..]) by {
        if AreasNonNegative(configs) {
          forall k | 0 <= k < |configs[1..]| ensures configs[1..][k].areaSquareFeet >= 0.0 {
            assert configs[1..][k] == configs[k + 1];
          }
        }
      }
      r
  }

  /** The rain pass never creates a second record for a name. */
  lemma {:induction false} RainAllKeepsNamesUnique(ps: seq<PuddleState>, configs: seq<PuddleConfig>, sample: WeatherSample, now: Ticks)
    requires UniqueNames(PuddleNames(ps))
    ensures UniqueNames(PuddleNames(RainAll(ps, configs, sample, now)))
    decreases |configs|
  {
    if |configs| > 0 {
      var ps1 := RainOne(ps, configs[0], sample, now);
      StepKeepsNamesUnique(PuddleNames(ps), PuddleNames(ps1), configs[0].name);
      RainAllKeepsNamesUnique(ps1, configs[1..], sample, now);
    }
  }

  /** A record whose name no configuration matches comes out unchanged. */
  lemma {:induction false} RainAllLeavesOthers(ps: seq<PuddleState>, configs: seq<PuddleConfig>, sample: WeatherSample, now: Ticks)
    ensures forall j :: 0 <= j < |ps| && Unconfigured(ps[j].name, configs) ==> RainAll(ps, configs, sample, now)[j] == ps[j]
    decreases |configs|
  {
    if |configs| > 0 {
      var ps1 := RainOne(ps, configs[0], sample, now);
      RainAllLeavesOthers(ps1, configs[1..], sample, now);
      forall j | 0 <= j < |ps| && Unconfigured(ps[j].name, configs)
        ensures Unconfigured(ps1[j].name, configs[1..])
      {
        assert !NameEquals(ps[j].name, configs[0].name);
        forall k | 0 <= k < |configs[1..]|
          ensures !NameEquals(ps1[j].name, configs[1..][k].name)
        {
          assert configs[1..][k] == configs[k + 1];
        }
      }
    }
  }

  /** Every configured puddle has a record afterwards, at the poll's temperature. */
  lemma {:induction false} RainAllSetsTemperature(ps: seq<PuddleState>, configs: seq<PuddleConfig>, sample: WeatherSample, now: Ticks)
    ensures var r := RainAll(ps, configs, sample, now);
      forall k :: 0 <= k < |configs| ==>
        && IndexOfName(PuddleNames(r), configs[k].name).Some?
        && r[IndexOfName(PuddleNames(r), configs[k].name).value].temperature == sample.temperature
    decreases |configs|, 0
  {
    if |configs| > 0 {
      var ps1 := RainOne(ps, configs[0], sample, now);
      var rest := configs[1..];
      var r := RainAll(ps1, rest, sample, now);
      assert r == RainAll(ps, configs, sample, now);
      RainAllSetsTemperature(ps1, rest, sample, now);
      RainAllKeepsTemperature(ps1, configs[0].name, rest, sample, now);
      forall k | 0 < k < |configs|
        ensures IndexOfName(PuddleNames(r), configs[k].name).Some?
        ensures r[IndexOfName(PuddleNames(r), configs[k].name).value].temperature == sample.temperature
      {
        assert configs[k] == rest[k - 1];
      }
    }
  }

  /** A record already at the poll's temperature keeps it through the rest of
      the pass: either no later configuration selects it, or one does and sets
      the same temperature again. */
  lemma {:induction false} RainAllKeepsTemperature(ps: seq<PuddleState>, name: string, configs: seq<PuddleConfig>,
                                                   sample: WeatherSample, now: Ticks)
    requires IndexOfName(PuddleNames(ps), name).Some?
    requires ps[IndexOfName(PuddleNames(ps), name).value].temperature == sample.temperature
    ensures var r := RainAll(ps, configs, sample, now);
      && IndexOfName(PuddleNames(r), name).Some?
      && r[IndexOfName(PuddleNames(r), name).value].temperature == sample.temperature
    decreases |configs|, 1
  {
    var r := RainAll(ps, configs, sample, now);
    RainAllSetsTemperature(ps, configs, sample, now);
    var i := IndexOfName(PuddleNames(ps), name).value;
    IndexOfNameExtend(PuddleNames(ps), PuddleNames(r), name);
    RainAllLeavesOthers(ps, configs, sample, now);
    if !Unconfigured(ps[i].name, configs) {
      var k :| 0 <= k < |configs| && NameEquals(ps[i].name, configs[k].name);
      IndexOfNameSameName(PuddleNames(r), configs[k].name, name);
    }
  }

  /** With distinct configured names each configured puddle gains exactly the
      gallons its own area collects (a missing one starts from zero). */
  lemma {:induction false} RainAllAddsGallons(ps: seq<PuddleState>, configs: seq<PuddleConfig>, sample: WeatherSample, now: Ticks)
    requires UniqueNames(ConfigNames(configs))
    ensures var r := RainAll(ps, configs, sample, now);
      forall k :: 0 <= k < |configs| ==>
        RemainingOf(r, configs[k].name) == RemainingOf(ps, configs[k].name) + GallonsAdded(configs[k], sample.rainfall)
    decreases |configs|
  {
    if |configs| > 0 {
      var ps1 := RainOne(ps, configs[0], sample, now);
      var r := RainAll(ps1, configs[1..], sample, now);
      UniqueConfigNamesTail(configs);
      RainAllAddsGallons(ps1, configs[1..], sample, now);
      var n0 := configs[0].name;
      var i0 := IndexOfName(PuddleNames(ps1), n0).value;
      IndexOfNameExtend(PuddleNames(ps1), PuddleNames(r), n0);
      RainAllLeavesOthers(ps1, configs[1..], sample, now);
      assert Unconfigured(ps1[i0].name, configs[1..]);
      forall k | 0 < k < |configs|
        ensures RemainingOf(r, configs[k].name) == RemainingOf(ps, configs[k].name) + GallonsAdded(configs[k], sample.rainfall)
      {
        assert configs[k] == configs[1..][k - 1];
        RainOneKeepsOthers(ps, configs[0], sample, now, configs[k].name);
      }
    }
  }

  /** Rain for one configuration does not change the volume another name selects. */
  lemma RainOneKeepsOthers(ps: seq<PuddleState>, config: PuddleConfig, sample: WeatherSample, now: Ticks, name: string)
    requires !NameEquals(name, config.name)
    ensures RemainingOf(RainOne(ps, config, sample, now), name) == RemainingOf(ps, name)
  {
  }

  /** The computation of UpdateFromWeatherStationsAsync on a loaded state. With
      no reading at all the averages are undefined and the service throws before
      saving; that is the `None` case. */
  function WeatherStep(state: ApplicationState, configs: seq<PuddleConfig>, readings: seq<Reading>, now: Ticks): (r: Option<WeatherUpdate>)
    ensures r.None? <==> |readings| == 0
    ensures r.Some? ==> 0.0 <= r.value.sample.rainfall <= ImpossiblyCrazyStormInchesPerHour
    ensures r.Some? ==> |r.value.state.puddles| >= |state.puddles|
    // the poll's sample is the aggregate of the readings, and the puddles are the
    // loaded ones after the rain pass for that sample
    ensures r.Some? ==>
      && r.value.sample == Aggregate(state.stations, readings, now).1
      && r.value.state.stations == Aggregate(state.stations, readings, now).0
      && r.value.state.puddles == RainAll(state.puddles, configs, r.value.sample, now)
    ensures r.Some? && AreasNonNegative(configs) ==>
      && (forall j :: 0 <= j < |state.puddles| ==>
            r.value.state.puddles[j].estimatedGallonsRemaining >= state.puddles[j].estimatedGallonsRemaining)
      && (WaterNonNegative(state.puddles) ==> WaterNonNegative(r.value.state.puddles))
  {
    if |readings| == 0 then None
    else
      var (stations, sample) := Aggregate(state.stations, readings, now);
      Some(WeatherUpdate(ApplicationState(RainAll(state.puddles, configs, sample, now), stations), sample))
  }

  /** The resulting puddles do not depend on the order of the bag when no
      station reports twice. */
  lemma WeatherStepIgnoresOrder(state: ApplicationState, configs: seq<PuddleConfig>,
                                readings: seq<Reading>, reordered: seq<Reading>, now: Ticks)
    requires |readings| > 0
    requires multiset(readings) == multiset(reordered)
    requires DistinctStations(readings) && DistinctStations(reordered)
    ensures WeatherStep(state, configs, reordered, now).Some?
    ensures WeatherStep(state, configs, readings, now).value.sample == WeatherStep(state, configs, reordered, now).value.sample
    ensures WeatherStep(state, configs, readings, now).value.state.puddles == WeatherStep(state, configs, reordered, now).value.state.puddles
  {
    AggregateIgnoresOrder(state.stations, readings, reordered, now);
  }

  /** UpdateFromWeatherStationsAsync: load from `store`, fold and apply, save
      with the loaded token into `current`, the store as it stands when the save
      is issued; one clock reading `now` stands for every default record created. */
  function UpdateFromWeatherStations(store: Store, current: Store, config: Configuration,
                                     readings: seq<Reading>, now: Ticks): (r: Saved)
    ensures |readings| == 0 ==> r == Saved(current, false)
    // with readings, the save is applied exactly when nothing was written since
    // the load, or when the load found no document; a refused save changes nothing
    ensures r.written <==> |readings| > 0 && Accepts(current, Load(store, config, now).etag)
    ensures !r.written ==> r.store == current
    ensures |readings| > 0 && Valid(store) && current == store ==> r.written
    ensures Valid(current) ==> Valid(r.store)
    ensures r.written ==>
      && |readings| > 0
      && r.store.document.Some?
      && r.store.document.value.state == WeatherStep(Load(store, config, now).state, config.puddles, readings, now).value.state
    ensures r.written && AreasNonNegative(config.puddles) && WaterNonNegative(Load(store, config, now).state.puddles) ==>
      r.store.document.Some? && WaterNonNegative(r.store.document.value.state.puddles)
  {
    var loaded := Load(store, config, now);
    match WeatherStep(loaded.state, config.puddles, readings, now)
    case None => Saved(current, false)
    case Some(update) => Save(current, update.state, loaded.etag)
  }

  /** SetWater on a loaded state: every puddle holds `gallons`, negative or not;
      nothing else changes. */
  function SetWater(state: ApplicationState, gallons: real): (r: ApplicationState)
    ensures r.stations == state.stations
    ensures |r.puddles| == |state.puddles|
    ensures forall i :: 0 <= i < |state.puddles| ==>
      && r.puddles[i].estimatedGallonsRemaining == gallons
      && r.puddles[i].name == state.puddles[i].name
      && r.puddles[i].lastDrainObservationTime == state.puddles[i].lastDrainObservationTime
      && r.puddles[i].drainedAtLastObservationTime == state.puddles[i].drainedAtLastObservationTime
      && r.puddles[i].temperature == state.puddles[i].temperature
  {
    state.(puddles := seq(|state.puddles|, i requires 0 <= i < |state.puddles| =>
                            state.puddles[i].(estimatedGallonsRemaining := gallons)))
  }

  /** Setting the water twice is setting it once, to the later value. */
  lemma SetWaterLastWins(state: ApplicationState, first: real, second: real)
    ensures SetWater(SetWater(state, first), second) == SetWater(state, second)
  {
  }

  /** The override keeps volumes non-negative exactly when its value is. */
  lemma SetWaterNonNegative(state: ApplicationState, gallons: real)
    requires |state.puddles| > 0
    ensures WaterNonNegative(SetWater(state, gallons).puddles) <==> gallons >= 0.0
  {
    assert SetWater(state, gallons).puddles[0].estimatedGallonsRemaining == gallons;
  }

  /** The SetWater request: load from `store`, overwrite every volume, save with
      the loaded token into `current`, the store as it stands when the save is issued. */
  function SetWaterCycle(store: Store, current: Store, config: Configuration, now: Ticks, gallons: real): (r: Saved)
    // the save is applied exactly when nothing was written since the load, or
    // when the load found no document; a refused save changes nothing
    ensures r.written <==> Accepts(current, Load(store, config, now).etag)
    ensures !r.written ==> r.store == current
    ensures Valid(store) && current == store ==> r.written
    ensures Valid(current) ==> Valid(r.store)
    ensures r.written ==>
      && r.store.document.Some?
      && |r.store.document.value.state.puddles| == |Load(store, config, now).state.puddles|
      && forall i :: 0 <= i < |r.store.document.value.state.puddles| ==>
           r.store.document.value.state.puddles[i].estimatedGallonsRemaining == gallons
    ensures r.written ==> r.store.document.value.state == SetWater(Load(store, config, now).state, gallons)
  {
    var loaded := Load(store, config, now);
    Save(current, SetWater(loaded.state, gallons), loaded.etag)
  }
}
